=== FILE: README.md ===
# pqConsole predicates: a Dafny model

This project models the core of `pqConsole.cpp`, the file of the SWI-Prolog Qt
console that defines the foreign predicates Prolog calls on the console:

- how the console of the calling thread is found in the widget hierarchy
  (`search_widget`, `console_by_thread`, `console_peek_first`);
- the property bridge `unify`, which reads or writes one Qt property from a
  Prolog term;
- `console_settings/1`, which runs `unify` over a list of `Name(Value)` options;
- `win_window_pos/1`, which resizes, moves, shows or activates the window
  around the console;
- `win_has_menu/0`, plus the menu closures of `win_insert_menu/2` and
  `win_insert_menu_item/4` (with their helper `add_action`);
- `rl_add_history/1` and `tty_size/2`.

Modules:

- `Prolog`: terms by tag, the exceptions raised toward Prolog, and the C
  integer widths.
- `Properties`: a property's declared type and value, and `unify`.
- `Settings`: the option run of `console_settings/1`.
- `Window`: the option run of `win_window_pos/1`.
- `Menus`: the menu bar and the two menu closures.
- `Gui`: the mutable Qt objects, as classes.
  - `Frame` is the parent widget, with its geometry and menu bar.
  - `Console` is the console widget, with its size, history and properties.
- `Widgets`: the widget tree and the stack-driven search over it.
- `Predicates`: the predicate bodies, as methods over a `Console?`.

The search method is proved equal to a visiting-order specification. That
order is each top-level widget, then its widget children's subtrees with the
last child first. Each predicate method is proved equal to the specification
function of its option run or closure. The lemmas state what those runs
promise:

- the order options are applied in, and where a run stops;
- which tags `unify` accepts for which declared types;
- write-then-read round trips;
- idempotence of menu insertion;
- that a run never changes the property schema.

Two behaviours of the code are modelled as written:

- An atom never sets a boolean property. A `Bool` property accepts reads only.
- A key of an enumerated property whose value is -1 cannot be written.
  `keyToValue` uses -1 to mean "missing", so such a key reads as absent.

## Model

| member | source | states |
|---|---|---|
| Widgets.Order | pqConsole.cpp:73-79 | The reference definition of the visiting order below one top-level widget. It starts with the widget itself, followed by its widget children's subtrees, last child first. `Pending` and `Visits` complete it, and the lemma rows below state their promises. |
| Widgets.SearchWidget | pqConsole.cpp:68-82 | Returns the first widget in visiting order that the predicate accepts, or none. Top-level widgets go in host order, each searched depth-first through a stack of widget children, last child first. |
| Widgets.SearchTree | pqConsole.cpp:70-79 | The stack loop for one top-level widget returns the first widget it accepts in that widget's visiting order, or none. |
| Widgets.PushChildren | pqConsole.cpp:76-78 | Pushing the widget children of a popped widget, in child order, puts their subtrees ahead of what was already stacked, with the last child's subtree first. |
| Widgets.MatchIndex | pqConsole.cpp:68-82 | The index of the first element the predicate accepts: no earlier element is accepted, and -1 exactly when none is. |
| Widgets.OrderReachable | pqConsole.cpp:73-79 | A widget's search visits a widget exactly when it is reachable from it through widget children; the subtree under a non-widget child is never visited. |
| Widgets.VisitsReachable | pqConsole.cpp:69-80 | Over all top-level widgets, a widget is visited exactly when some top-level widget reaches it. |
| Widgets.LastChildFirst | pqConsole.cpp:73-79 | Right after a widget, the search visits its last child when that child is a widget (stack order). |
| Widgets.ConsoleByThread | pqConsole.cpp:87-94 | Returns a console of the calling thread, namely the first one in visiting order; null exactly when no visited console belongs to that thread. |
| Widgets.UniqueOwner | pqConsole.cpp:87-94 | When a thread owns exactly one visited console, the search finds that console. |
| Widgets.ConsolePeekFirst | pqConsole.cpp:98-102 | Returns the first console in visiting order, whoever owns it; null exactly when no visited widget is a console. |
| Properties.Unify | pqConsole.cpp:107-183 | Reads when the term is unbound and writes otherwise. A write keeps the property's declared type. An unbound term reads every type except Double and unsupported ones. The only errors are 'property type mismatch' and the integer conversion's type error. |
| Properties.ReadSlot | pqConsole.cpp:111-134 | A read produces nothing for Double and unsupported types, and a term for every other type. |
| Properties.ReadBool | pqConsole.cpp:113-115 | A boolean property reads as the atom `true` or `false`. |
| Properties.ReadUIntString | pqConsole.cpp:127-132 | A `UInt` reads as its integer and a `String` as the atom of its text, whether or not the property is writable. |
| Properties.ReadInt | pqConsole.cpp:116-126 | An enumerated `Int` whose value has a key reads as the atom of the first key carrying that value (`valueToKey`). Any other `Int` reads as its integer. |
| Properties.ReadDoubleMismatch | pqConsole.cpp:111-182 | Reading a Double or unsupported property raises 'property type mismatch'. |
| Properties.WriteAccepts | pqConsole.cpp:138-182 | A bound term succeeds exactly when one of these holds: an int32 integer to a writable Int/UInt; an atom to a writable String; a known key to an enumerated Int; a float to a writable Double. |
| Properties.WriteStores | pqConsole.cpp:138-172 | What an accepted write stores: an integer its value on an `Int`, enumerated or not, and its unsigned reading on a `UInt`; an atom its text on a `String`; a key its value on a writable enumeration, while a read-only enumeration keeps its old value because the write's failure is ignored; a float its value on a `Double`. |
| Properties.Int32Error | pqConsole.cpp:138-142 | An integer outside 32 bits on an `Int` or `UInt` raises the integer type error of the conversion, before any write and whatever the writability. |
| Properties.Mismatches | pqConsole.cpp:149-182 | An atom on a boolean property, an integer on a string property, and an unknown key on an enumerated property each raise 'property type mismatch'. |
| Properties.MinusOneKeyRefused | pqConsole.cpp:154-160 | An enumeration key whose value is -1 is refused like a missing key. |
| Properties.IntRoundTrip | pqConsole.cpp:116-143 | Writing an int32 integer to a plain writable `Int` property reads back the same integer. |
| Properties.UIntRoundTrip | pqConsole.cpp:127-143 | Writing n to a writable `UInt` reads back n, or n + 2^32 when n is negative. |
| Properties.StringRoundTrip | pqConsole.cpp:130-153 | Writing an atom to a writable `String` property reads back the same atom. |
| Properties.EnumRoundTrip | pqConsole.cpp:116-161 | Writing a key to a writable enumerated property, when its value is not -1 and it is the first key with its name and with its value, reads back the same key. |
| Properties.UnifyKeepsKind | pqConsole.cpp:107-183 | A successful `unify` never changes the declared type of the property. |
| Properties.ValueIndex | pqConsole.cpp:119-120 | `valueToKey`: the first key carrying a value, or -1 exactly when no key does. |
| Properties.KeyToValue | pqConsole.cpp:157 | `keyToValue`: the value of the first entry with the key, and -1 when no entry has it. |
| Properties.KeyIndex | pqConsole.cpp:157 | `keyToValue`'s lookup: the first entry for a key, or -1 exactly when no entry has that key. |
| Prolog.Wrap32 | pqConsole.cpp:226-233 | Narrowing to a C `int` agrees with the input modulo 2^32 and is the identity on int32 values. |
| Prolog.ToUInt32 | pqConsole.cpp:141-142 | A signed int stored into an unsigned property becomes n, or n + 2^32 when n is negative. |
| Prolog.NameAndArity | pqConsole.cpp:224 | An atom has arity 0 and a compound has its number of arguments. Any other term raises a type error. |
| Prolog.AsLong | pqConsole.cpp:226 | An integer that fits a C `long` converts; any other term raises a type error. |
| Settings.IndexOfProperty | pqConsole.cpp:508 | The first property with the name, or -1 exactly when no property has it. |
| Settings.ApplyOption | pqConsole.cpp:506-515 | The reference definition of one option. A step succeeds only on an option `Name(Value)` naming a property, and keeps the table's size. It raises only the five exceptions of `console_settings`. |
| Settings.ApplyOptionOutcome | pqConsole.cpp:506-515 | The checks in source order. A term without a name is a type error. An arity other than 1 raises 'properties have arity 1'. An unknown name raises 'property not found'. Otherwise the option is read or written as `unify` says for its argument. |
| Settings.Settings | pqConsole.cpp:505-517 | The reference definition of the option run: options in list order, stopping at the first that raises. The table keeps its size, and the run raises only what a single option can raise. |
| Settings.ApplyOptionSchema | pqConsole.cpp:506-515 | One option never adds, removes, renames or retypes a property, and changes only the property it names. |
| Settings.SettingsSchema | pqConsole.cpp:500-520 | However the option run ends, the property table keeps its schema. |
| Settings.SettingsAppend | pqConsole.cpp:505-516 | Options go left to right. The run over `a + b` is the run over `a`, then over `b` from the resulting table if `a` raised nothing; the writes before a raising option stay done. |
| Settings.SettingsSucceeds | pqConsole.cpp:505-517 | The run succeeds exactly when every option applies to the table the earlier options left. It then returns one instantiated option per option. |
| Settings.QueriesChangeNothing | pqConsole.cpp:505-516 | A list of queries (every argument unbound) leaves every property value unchanged. |
| Predicates.ConsoleSettings | pqConsole.cpp:500-520 | Fails without a console. Otherwise the new property table, the success and the exception are exactly those of the option run. Nothing else of the console changes. |
| Predicates.SetOne | pqConsole.cpp:506-515 | One option, as the code does it (arity check, name lookup, `unify`), agrees with the option run's single step. |
| Window.PosOption | pqConsole.cpp:224-255 | The reference definition of one option. It is recognised only as `size/2`, `position/2`, `zorder/1`, `show/1` or `activate/0`. Any other name and arity makes it report "not recognised", which fails the predicate, rather than raise. An option with no name raises the `compound` type error. It raises only type errors. |
| Window.NamelessOption | pqConsole.cpp:224-225 | An option with no name, such as an integer, raises the `compound` type error and leaves the window as it was. |
| Window.WindowPos | pqConsole.cpp:223-258 | The reference definition of the option run. The only exceptions it raises are the type errors of the argument conversions. |
| Window.WindowPosAppend | pqConsole.cpp:223-256 | Options apply in list order. An unrecognised option or a conversion error stops the run, and earlier effects stay. |
| Window.WindowPosSucceeds | pqConsole.cpp:223-258 | The predicate is true exactly when every option is recognised and its arguments convert. |
| Window.SizeInCells | pqConsole.cpp:225-229 | `size(W, H)` makes the window W by H character cells, when the pixel sizes fit an `int`. |
| Window.ShowAndZOrder | pqConsole.cpp:236-248 | `show(B)` makes the window visible exactly when B is `true`. `zorder(_)` changes nothing. |
| Window.PositionAndActivate | pqConsole.cpp:231-252 | `position(X, Y)` moves the window to (X, Y), and `activate` activates it. |
| Window.ConversionErrors | pqConsole.cpp:226-242 | Either `size` or `position` argument, first or second, that is not an integer fitting a `long` raises the integer type error. A `show` argument without a name raises the compound type error. Either way the window is unchanged. |
| Window.UnknownOptionKeepsEarlierEffects | pqConsole.cpp:249-255 | An option whose name and arity are none of the five recognised ones fails the predicate, without raising and without undoing the options before it. |
| Predicates.WinWindowPos | pqConsole.cpp:211-259 | Fails without a console or parent widget. Otherwise the window's new geometry and the outcome are exactly those of the option run, and the menu bar is untouched. |
| Predicates.TtySizeOf | pqConsole.cpp:466-477 | Without a console there is no answer. Otherwise it gives the rows and columns of whole character cells that fit in the console widget (floor division). |
| Predicates.CellsIn | pqConsole.cpp:470-471 | The number of whole cells that fit: n·cell ≤ pixels < (n+1)·cell. |
| Predicates.RlAddHistory | pqConsole.cpp:432-441 | Fails without a console. Otherwise it appends a non-empty line to the history, ignores an empty one, and changes nothing else. |
| Menus.AddAction | pqConsole.cpp:272-282 | `add_action` puts a new action (not a separator) with the label and the tool tip `win_menu:Goal` in front of the `before` action, or at the end when there is none. The items before it are unchanged, and the rest shift by one. |
| Menus.AddActionFound | pqConsole.cpp:272-282 | A label that was absent is found afterwards at the position `add_action` gave it. |
| Menus.FindTitle | pqConsole.cpp:293-300 | The loop over the menu bar's actions finds the first menu with the title, or -1. |
| Menus.FindText | pqConsole.cpp:332-351 | The loop over a pulldown's actions finds the first item with the text, or -1. |
| Menus.InsertAt | pqConsole.cpp:277-280 | Inserting before position k keeps the elements before k and shifts the rest by one. |
| Menus.InsertMenu | pqConsole.cpp:291-305 | The reference definition of the `win_insert_menu` closure. It adds at most one menu, and only when no menu has the title. |
| Menus.InsertMenuPresent | pqConsole.cpp:291-304 | Afterwards a menu with the title exists exactly when one existed, or `Before` named a menu, or `Before` was "-". |
| Menus.InsertMenuShape | pqConsole.cpp:291-306 | Existing menus keep their order. At most one empty menu is added, and only when no menu had that title. |
| Menus.InsertMenuBefore | pqConsole.cpp:296-300 | The new menu lands immediately before the first menu titled `Before`. |
| Menus.InsertMenuAppend | pqConsole.cpp:301-304 | With `Before` "-", a new title is appended at the end of the bar. |
| Menus.InsertMenuIdempotent | pqConsole.cpp:291-306 | Calling `win_insert_menu` a second time with the same arguments changes nothing. |
| Predicates.WinHasMenu | pqConsole.cpp:264-267 | `win_has_menu` never raises. It is true exactly for a console whose parent is a `QMainWindow`. The menu closures below act exactly when it is true. |
| Predicates.WinInsertMenu | pqConsole.cpp:287-311 | True exactly when there is a console. A main-window parent's menu bar changes as the menu insertion says; nothing else changes. |
| Menus.InsertItem | pqConsole.cpp:330-354 | The reference definition of the closure body on one pulldown. A body that returns adds at most one item. A body that falls through adds exactly two, and only when `Before` named no item. |
| Menus.ItemBody | pqConsole.cpp:330-355 | The closure body on one pulldown, with its search loops, gives the items and the return flag that the item insertion specifies. |
| Menus.InsertItemPresent | pqConsole.cpp:330-355 | A non-separator label names an item afterwards. Unless the body only retargeted an item, so does a `Before` other than "-". |
| Menus.InsertItemUpdate | pqConsole.cpp:331-337 | An existing label keeps every item and its order. The only change is that its first item's tool tip becomes the bare goal, and the body returns. |
| Menus.InsertItemAppend | pqConsole.cpp:337-343 | With `Before` "-", the new entry is appended at the end of the pulldown: a separator for "--", and otherwise a `win_menu:Goal` action. |
| Menus.InsertItemBefore | pqConsole.cpp:344-351 | The new entry goes immediately before the first item `Before`. It is a separator for "--" and a `win_menu:Goal` action otherwise. |
| Menus.InsertItemPlaceholder | pqConsole.cpp:353-354 | When `Before` names no item, a placeholder action `Before` is appended with an empty goal, and the `Label` action goes in front of it. The loop then goes on to later pulldowns with the same title. |
| Menus.InsertItemInBar | pqConsole.cpp:328-356 | The closure over the whole bar keeps the number of menus. |
| Menus.InsertItemInBarShape | pqConsole.cpp:328-356 | Menus keep their titles and order, and pulldowns with other titles are untouched. |
| Menus.InsertItemNoPulldown | pqConsole.cpp:328-329 | Without a pulldown of that title nothing changes. |
| Menus.InsertItemFirstPulldown | pqConsole.cpp:328-356 | The first pulldown of that title always receives the closure body, and the menus before it are untouched. Later menus are untouched when that body returned; otherwise they get the closure in turn. |
| Predicates.InsertItemInMenus | pqConsole.cpp:328-356 | The closure's `foreach` loop over a copy of the bar, stopping when a body returns, leaves the bar that the closure over the whole bar specifies. |
| Predicates.WinInsertMenuItem | pqConsole.cpp:316-361 | True exactly when there is a console. A main-window parent's menu bar becomes the closure's result over it; nothing else changes. |

## Left out

- `exec_func`, `exec_sync` and the GUI-thread dispatch are not modelled. The closures run directly on the objects they would change, so the model has no concurrency.
- The data race on the widget tree (`search_widget` running off the GUI thread) is not modelled. The tree is a value read in one step.
- `win_open_console`, `window_title`, `tty_clear`, `$rl_history`, `rl_read_init_file` and `runDemo` are not part of this model.
- The file and font dialogs, `quit_console`, `copy` and `paste` are not part of this model.
- Each predicate is modelled as a method on a `Console?`: the console that `console_by_thread` returned for the calling thread. `PL_thread_self` and `ConsoleEdit::match_thread` become the `thread` field and an equality test.
- `ConsoleEdit::add_history_line` is not part of this model. Its body is not visible, so the model takes it to be an append to the history.
- The font metrics of the glyph "Q" (the character cell) are a parameter. `Predicates.TtySizeOf` requires a positive cell; a zero-sized font would divide by zero.
- Qt's minimum and maximum size constraints on `resize`, and what showing or activating does beyond two flags, are not modelled.
- Flag enumerations are not modelled: an enumerated property is an `Int` with one key table.
- `QMetaProperty` internals are not modelled. Beyond its name, writability and declared type, a property is only its value.
- Doubles are opaque bit patterns. They are only copied, never computed with.
- The SWI-Prolog C++ conversions are modelled as type errors. `qint32(v)` accepts only int32 integers, and `long(v)` accepts only integers in the LP64 `long` range. Integral floats accepted by `PL_get_long` are not modelled.
- Properties.Unify: in the read path, the model binds a fresh variable and does not model sharing between variables in different options. Unification against an already bound argument is not modelled.
- An option list is a proper list; partial or non-list arguments are not modelled.
- The text arguments of the menu predicates and `rl_add_history` are given as strings. The conversions `CCP(A1)` and `WCP line = A1` are not modelled, nor their type errors.
- Properties.StringRoundTrip: the string conversions in `unify` are taken to be the identity. These are the read `A(p.read(o).toString())` and the write `p.write(o, CCP(v))`, and both pass through `const char*` and `QString` encodings that are not modelled. A string the encodings change would not read back as written.
- The `qDebug` message for a failed `win_insert_menu` is not modelled.

=== FILE: gui.dfy ===
/** The Qt objects the predicates act on: the console widget (a
    `ConsoleEdit`) and the widget that frames it (its parent widget, a
    `QMainWindow` when the console has a menu bar). The GUI thread alone
    changes them; a worker reaches them by dispatching a closure, which this
    model runs directly. */
module Gui {
  import opened Properties
  import opened Menus
  import Window

  /** The parent widget of a console. */
  class Frame {
    /** Whether the parent is a `QMainWindow`. */
    const isMainWindow: bool
    var width: int
    var height: int
    var x: int
    var y: int
    var visible: bool
    var active: bool
    /** The pulldown menus of the main window's menu bar. */
    var menuBar: seq<Menu>

    /** The part of the window that `win_window_pos/1` changes. */
    function Geometry(): Window.Geometry
      reads this
    {
      Window.Geometry(width, height, x, y, visible, active)
    }
  }

  /** A console widget. The owning thread is fixed when the console is
      created, and so is the parent widget. */
  class Console {
    /** The Prolog thread the console belongs to (`match_thread`). */
    const thread: int
    const frame: Frame?
    /** Size of the console widget in pixels. */
    var width: nat
    var height: nat
    /** The command history, oldest first. */
    var history: seq<string>
    /** The console's Qt properties, in the order a lookup by name meets them. */
    var props: seq<Property>
  }
}

=== FILE: menus.dfy ===
/** The menu bar of the window framing a console, and the rules by which
    `win_insert_menu/2` and `win_insert_menu_item/4` change it: a bar is a
    sequence of pulldown menus, a pulldown a sequence of items. */
module Menus {
  import opened Prolog

  /** A menu action. A separator has empty text. The tool tip of an action
      created by these predicates holds `Module:Goal`, the goal to run. */
  datatype Item = Item(text: string, toolTip: string, separator: bool)

  /** A pulldown menu of the bar, with its title. */
  datatype Menu = Menu(title: string, items: seq<Item>)

  /** The module name written in front of every goal `add_action` stores. */
  const CONTEXT_MODULE: string := "win_menu"

  const SEPARATOR: Item := Item("", "", true)

  /** The action `add_action` creates: text `name`, tool tip `win_menu:goal`. */
  function Action(name: string, goal: string): Item
  {
    Item(name, CONTEXT_MODULE + ":" + goal, false)
  }

  /** The position of the first menu titled `t`, or -1. */
  function TitleIndex(bar: seq<Menu>, t: string): (r: int)
    ensures -1 <= r < |bar|
    ensures r >= 0 ==> bar[r].title == t && forall j :: 0 <= j < r ==> bar[j].title != t
    ensures r == -1 <==> forall j :: 0 <= j < |bar| ==> bar[j].title != t
  {
    if bar == [] then -1
    else if bar[0].title == t then 0
    else
      var k := TitleIndex(bar[1..], t);
      if k == -1 then -1 else k + 1
  }

  /** The position of the first item with text `t`, or -1. */
  function TextIndex(items: seq<Item>, t: string): (r: int)
    ensures -1 <= r < |items|
    ensures r >= 0 ==> items[r].text == t && forall j :: 0 <= j < r ==> items[j].text != t
    ensures r == -1 <==> forall j :: 0 <= j < |items| ==> items[j].text != t
  {
    if items == [] then -1
    else if items[0].text == t then 0
    else
      var k := TextIndex(items[1..], t);
      if k == -1 then -1 else k + 1
  }

  /** The loop over the bar's actions in `win_insert_menu`, as a search. */
  method FindTitle(bar: seq<Menu>, t: string) returns (k: int)
    ensures k == TitleIndex(bar, t)
  {
    k := 0;
    while k < |bar|
      invariant 0 <= k <= |bar|
      invariant forall j :: 0 <= j < k ==> bar[j].title != t
    {
      if bar[k].title == t {
        return;
      }
      k := k + 1;
    }
    k := -1;
  }

  /** The loops over a pulldown's actions in `win_insert_menu_item`, as a search. */
  method FindText(items: seq<Item>, t: string) returns (k: int)
    ensures k == TextIndex(items, t)
  {
    k := 0;
    while k < |items|
      invariant 0 <= k <= |items|
      invariant forall j :: 0 <= j < k ==> items[j].text != t
    {
      if items[k].text == t {
        return;
      }
      k := k + 1;
    }
    k := -1;
  }

  function InsertAt<T>(s: seq<T>, k: nat, x: T): (r: seq<T>)
    requires k <= |s|
    ensures |r| == |s| + 1 && r[k] == x
    ensures forall j :: 0 <= j < k ==> r[j] == s[j]
    ensures forall j :: k < j < |r| ==> r[j] == s[j - 1]
  {
    s[..k] + [x] + s[k..]
  }

  /** `add_action`: a new action `name` running `win_menu:goal`, inserted in
      front of the action at position `before`, or appended when there is
      none. Every other item keeps its place relative to the others. */
  function AddAction(items: seq<Item>, name: string, goal: string, before: Option<nat>): (r: seq<Item>)
    requires before.Some? ==> before.value < |items|
    ensures var k := if before.Some? then before.value else |items|;
      |r| == |items| + 1 && r[..k] == items[..k] && r[k + 1..] == items[k..] &&
      r[k].text == name && r[k].toolTip == "win_menu:" + goal && !r[k].separator
  {
    var k := if before.Some? then before.value else |items|;
    var r := InsertAt(items, k, Action(name, goal));
    assert r[..k] == items[..k] && r[k + 1..] == items[k..];
    r
  }

  /** A label that was not in the pulldown is found, afterwards, at the
      position `add_action` gave it: the next lookup of that label hits it. */
  lemma AddActionFound(items: seq<Item>, name: string, goal: string, before: Option<nat>)
    requires before.Some? ==> before.value < |items|
    requires TextIndex(items, name) == -1
    ensures TextIndex(AddAction(items, name, goal, before), name) == if before.Some? then before.value else |items|
  {
    var k := if before.Some? then before.value else |items|;
    var r := AddAction(items, name, goal, before);
    forall j | 0 <= j < k
      ensures r[j].text != name
    {
      assert r[j] == r[..k][j] == items[..k][j];
    }
  }

  // ---------------------------------------------------------------------
  // win_insert_menu(+Label, +Before)

  /** The bar after the `win_insert_menu` closure: unchanged if a menu titled
      `name` exists; else a new empty menu before the first menu titled
      `before`; else, if `before` is "-", at the end; else unchanged. */
  function InsertMenu(bar: seq<Menu>, name: string, before: string): (r: seq<Menu>)
    ensures |r| == |bar| || (|r| == |bar| + 1 && TitleIndex(bar, name) == -1)
  {
    if TitleIndex(bar, name) >= 0 then bar
    else if TitleIndex(bar, before) >= 0 then InsertAt(bar, TitleIndex(bar, before), Menu(name, []))
    else if before == "-" then bar + [Menu(name, [])]
    else bar
  }

  /** A menu titled `name` is there afterwards exactly when it was there
      before, or `before` named a menu, or `before` was "-". */
  lemma InsertMenuPresent(bar: seq<Menu>, name: string, before: string)
    ensures TitleIndex(InsertMenu(bar, name, before), name) >= 0 <==>
      TitleIndex(bar, name) >= 0 || TitleIndex(bar, before) >= 0 || before == "-"
  {
    var r := InsertMenu(bar, name, before);
    if TitleIndex(bar, name) < 0 {
      var k := TitleIndex(bar, before);
      if k >= 0 {
        assert r[k].title == name;
      } else if before == "-" {
        assert r[|bar|].title == name;
      }
    }
  }

  /** The existing menus keep their order; at most one empty menu titled
      `name` is added, and only when no menu had that title. */
  lemma InsertMenuShape(bar: seq<Menu>, name: string, before: string)
    ensures var r := InsertMenu(bar, name, before);
      r == bar ||
      (TitleIndex(bar, name) == -1 &&
       exists k :: 0 <= k <= |bar| && r == bar[..k] + [Menu(name, [])] + bar[k..])
  {
    var r := InsertMenu(bar, name, before);
    if r != bar {
      var k := if TitleIndex(bar, before) >= 0 then TitleIndex(bar, before) else |bar|;
      assert r == bar[..k] + [Menu(name, [])] + bar[k..];
    }
  }

  /** The new menu lands immediately before the first menu titled `before`. */
  lemma InsertMenuBefore(bar: seq<Menu>, name: string, before: string)
    requires TitleIndex(bar, name) == -1 && TitleIndex(bar, before) >= 0
    ensures var r := InsertMenu(bar, name, before); var k := TitleIndex(bar, before);
      r[k] == Menu(name, []) && r[k + 1] == bar[k] && TitleIndex(r, before) == k + 1
  {
  }

  /** With `before` "-" and no menu titled `name` or "-", the new menu is
      appended at the end of the bar. */
  lemma InsertMenuAppend(bar: seq<Menu>, name: string)
    requires TitleIndex(bar, name) == -1 && TitleIndex(bar, "-") == -1
    ensures InsertMenu(bar, name, "-") == bar + [Menu(name, [])]
  {
  }

  /** Repeating the call changes nothing more. */
  lemma InsertMenuIdempotent(bar: seq<Menu>, name: string, before: string)
    ensures InsertMenu(InsertMenu(bar, name, before), name, before) == InsertMenu(bar, name, before)
  {
    InsertMenuPresent(bar, name, before);
  }

  // ---------------------------------------------------------------------
  // win_insert_menu_item(+Pulldown, +Label, +Before, :Goal)

  /** The items of one pulldown after the closure body ran on it, and whether
      the body returned (ending the closure) or fell through to the next
      pulldown of the same title. */
  datatype Placed = Placed(items: seq<Item>, returned: bool)

  /** The item a new entry `name` becomes: "--" is a separator. */
  function Entry(name: string, goal: string): Item
  {
    if name == "--" then SEPARATOR else Action(name, goal)
  }

  /** The closure body for one pulldown: update the tool tip of an existing
      item `name`; else, for `before` "-", append; else insert before the
      first item `before`; else append a placeholder action `before` and put
      an action `name` in front of it (and do not return). */
  function InsertItem(items: seq<Item>, name: string, before: string, goal: string): (r: Placed)
    ensures r.returned ==> |r.items| <= |items| + 1
    ensures !r.returned ==> |r.items| == |items| + 2 && TextIndex(items, before) == -1
  {
    var li := TextIndex(items, name);
    var bi := TextIndex(items, before);
    if name != "--" && li >= 0 then
      Placed(items[li := items[li].(toolTip := goal)], true)
    else if before == "-" then
      Placed(if name == "--" then items + [SEPARATOR] else AddAction(items, name, goal, None), true)
    else if bi >= 0 then
      Placed(if name == "--" then InsertAt(items, bi, SEPARATOR) else AddAction(items, name, goal, Some(bi)), true)
    else
      var withPlaceholder := AddAction(items, before, "", None);
      Placed(AddAction(withPlaceholder, name, goal, Some(|items|)), false)
  }

  /** The closure body of `win_insert_menu_item` on one pulldown, with the
      searches as loops; `returned` says whether the body returned. */
  method ItemBody(items0: seq<Item>, name: string, before: string, goal: string)
    returns (items: seq<Item>, returned: bool)
    ensures Placed(items, returned) == InsertItem(items0, name, before, goal)
  {
    items := items0;
    if name != "--" {
      var li := FindText(items, name);
      if li >= 0 {
        items := items[li := items[li].(toolTip := goal)];
        return items, true;
      }
    }
    if before == "-" {
      if name == "--" {
        items := items + [SEPARATOR];
      } else {
        items := AddAction(items, name, goal, None);
      }
      return items, true;
    }
    var bi := FindText(items, before);
    if bi >= 0 {
      if name == "--" {
        items := InsertAt(items, bi, SEPARATOR);
      } else {
        items := AddAction(items, name, goal, Some(bi));
      }
      return items, true;
    }
    items := AddAction(items, before, "", None);
    items := AddAction(items, name, goal, Some(|items| - 1));
    returned := false;
  }

  /** After the body, a non-separator `name` names an item, and, unless the
      body only updated a tool tip, so does a `before` other than "-". */
  lemma InsertItemPresent(items: seq<Item>, name: string, before: string, goal: string)
    ensures var r := InsertItem(items, name, before, goal);
      (name != "--" ==> TextIndex(r.items, name) >= 0) &&
      (before != "-" && !(name != "--" && TextIndex(items, name) >= 0) ==> TextIndex(r.items, before) >= 0)
  {
    var r := InsertItem(items, name, before, goal);
    var li := TextIndex(items, name);
    if name != "--" && li >= 0 {
      assert r.items[li].text == name;
    } else if before == "-" {
      if name != "--" { assert r.items[|items|].text == name; }
    } else if TextIndex(items, before) >= 0 {
      var k := TextIndex(items, before);
      if name != "--" { assert r.items[k].text == name; }
      assert r.items[k + 1].text == before;
    } else {
      assert r.items[|items|].text == name;
      assert r.items[|items| + 1].text == before;
    }
  }

  /** An existing item is only re-targeted: same items, same order, and the
      tool tip of the first item `name` becomes the bare goal, without the
      `win_menu:` prefix a new action gets. */
  lemma InsertItemUpdate(items: seq<Item>, name: string, before: string, goal: string)
    requires name != "--" && TextIndex(items, name) >= 0
    ensures var r := InsertItem(items, name, before, goal); var k := TextIndex(items, name);
      r.returned && r.items == items[k := items[k].(toolTip := goal)]
  {
  }

  /** A new entry goes immediately before the first item `before`, as a
      separator for "--" and as an action running `win_menu:goal` otherwise. */
  lemma InsertItemBefore(items: seq<Item>, name: string, before: string, goal: string)
    requires !(name != "--" && TextIndex(items, name) >= 0)
    requires before != "-" && TextIndex(items, before) >= 0
    ensures var r := InsertItem(items, name, before, goal); var k := TextIndex(items, before);
      r.returned && r.items == items[..k] + [Entry(name, goal)] + items[k..] &&
      (name == "--" ==> r.items[k].separator) &&
      (name != "--" ==> r.items[k] == Item(name, "win_menu:" + goal, false))
  {
  }

  /** With `before` "-", the new entry is appended at the end of the
      pulldown: a separator for "--", an action running `win_menu:goal`
      otherwise. */
  lemma InsertItemAppend(items: seq<Item>, name: string, goal: string)
    requires !(name != "--" && TextIndex(items, name) >= 0)
    ensures InsertItem(items, name, "-", goal) == Placed(items + [Entry(name, goal)], true)
  {
    if name != "--" {
      var r := AddAction(items, name, goal, None);
      assert r[..|items|] == items;
      assert r == r[..|items|] + [r[|items|]];
    }
  }

  /** When `before` names no item, a placeholder action `before` with an
      empty goal is appended, the new action `name` (never a separator, even
      for "--") goes right in front of it, and the closure carries on. */
  lemma InsertItemPlaceholder(items: seq<Item>, name: string, before: string, goal: string)
    requires !(name != "--" && TextIndex(items, name) >= 0)
    requires before != "-" && TextIndex(items, before) == -1
    ensures InsertItem(items, name, before, goal) ==
      Placed(items + [Item(name, "win_menu:" + goal, false), Item(before, "win_menu:", false)], false)
  {
    assert CONTEXT_MODULE + ":" + goal == "win_menu:" + goal;
    assert CONTEXT_MODULE + ":" + "" == "win_menu:";
  }

  /** The closure over the whole bar: every pulldown titled `pulldown`, in
      bar order, gets the body, until one body returns. */
  function InsertItemInBar(bar: seq<Menu>, pulldown: string, name: string, before: string, goal: string): (r: seq<Menu>)
    ensures |r| == |bar|
    decreases |bar|
  {
    if bar == [] then []
    else if bar[0].title == pulldown then
      var p := InsertItem(bar[0].items, name, before, goal);
      [bar[0].(items := p.items)] + (if p.returned then bar[1..] else InsertItemInBar(bar[1..], pulldown, name, before, goal))
    else [bar[0]] + InsertItemInBar(bar[1..], pulldown, name, before, goal)
  }

  /** The bar keeps its menus, titles and order; pulldowns with another title
      are untouched. */
  lemma {:induction false} InsertItemInBarShape(bar: seq<Menu>, pulldown: string, name: string, before: string, goal: string)
    ensures var r := InsertItemInBar(bar, pulldown, name, before, goal);
      |r| == |bar| &&
      forall j :: 0 <= j < |bar| ==> r[j].title == bar[j].title && (bar[j].title != pulldown ==> r[j] == bar[j])
    decreases |bar|
  {
    if bar != [] {
      InsertItemInBarShape(bar[1..], pulldown, name, before, goal);
    }
  }

  /** Without a pulldown titled `pulldown` nothing changes. */
  lemma {:induction false} InsertItemNoPulldown(bar: seq<Menu>, pulldown: string, name: string, before: string, goal: string)
    requires TitleIndex(bar, pulldown) == -1
    ensures InsertItemInBar(bar, pulldown, name, before, goal) == bar
    decreases |bar|
  {
    if bar != [] {
      assert bar[0].title != pulldown;
      InsertItemNoPulldown(bar[1..], pulldown, name, before, goal);
    }
  }

  /** The first pulldown titled `pulldown` always gets the body; the menus
      before it are untouched, and the later ones get the closure only if
      that body did not return. */
  lemma {:induction false} InsertItemFirstPulldown(bar: seq<Menu>, pulldown: string, name: string, before: string, goal: string)
    requires TitleIndex(bar, pulldown) >= 0
    ensures var k := TitleIndex(bar, pulldown);
      var p := InsertItem(bar[k].items, name, before, goal);
      InsertItemInBar(bar, pulldown, name, before, goal) ==
        bar[..k] + [bar[k].(items := p.items)] +
        (if p.returned then bar[k + 1..] else InsertItemInBar(bar[k + 1..], pulldown, name, before, goal))
    decreases |bar|
  {
    var k := TitleIndex(bar, pulldown);
    var p := InsertItem(bar[k].items, name, before, goal);
    var m := bar[k].(items := p.items);
    var later := if p.returned then bar[k + 1..] else InsertItemInBar(bar[k + 1..], pulldown, name, before, goal);
    if bar[0].title != pulldown {
      var tail := bar[1..];
      assert TitleIndex(tail, pulldown) == k - 1;
      assert tail[k - 1] == bar[k] && tail[k..] == bar[k + 1..];
      InsertItemFirstPulldown(tail, pulldown, name, before, goal);
      FirstPulldownLater(bar, pulldown, name, before, goal, k, m, later);
    } else {
      FirstPulldownHere(bar, pulldown, name, before, goal);
    }
  }

  lemma FirstPulldownHere(bar: seq<Menu>, pulldown: string, name: string, before: string, goal: string)
    requires bar != [] && bar[0].title == pulldown
    ensures var p := InsertItem(bar[0].items, name, before, goal);
      InsertItemInBar(bar, pulldown, name, before, goal) ==
        bar[..0] + [bar[0].(items := p.items)] +
        (if p.returned then bar[1..] else InsertItemInBar(bar[1..], pulldown, name, before, goal))
  {
    assert bar[..0] == [];
  }

  lemma FirstPulldownLater(bar: seq<Menu>, pulldown: string, name: string, before: string, goal: string,
                           k: nat, m: Menu, later: seq<Menu>)
    requires 1 <= k <= |bar| && bar[0].title != pulldown
    requires InsertItemInBar(bar[1..], pulldown, name, before, goal) == bar[1..][..k - 1] + [m] + later
    ensures InsertItemInBar(bar, pulldown, name, before, goal) == bar[..k] + [m] + later
  {
    ConsAssoc(bar[0], bar[1..][..k - 1], m, later);
    assert [bar[0]] + bar[1..][..k - 1] == bar[..k];
  }

  lemma ConsAssoc(x: Menu, a: seq<Menu>, m: Menu, c: seq<Menu>)
    ensures [x] + (a + [m] + c) == ([x] + a) + [m] + c
  {
  }
}

=== FILE: predicates.dfy ===
/** The bodies of the foreign predicates. Each one starts from the console
    that `console_by_thread()` found for the calling thread, given here as
    `c` (`null` when the thread has none), and fails when there is none. A
    closure the source hands to the GUI thread is run here directly. */
module Predicates {
  import opened Prolog
  import opened Properties
  import opened Settings
  import opened Menus
  import Window
  import opened Gui

  // ---------------------------------------------------------------------
  // console_settings(+Options)

  /** `console_settings/1`: options in list order, each `Name(Value)` read or
      written through `unify`; the first option that raises ends the call with
      its exception, leaving the writes before it in place. `bound` is the
      option list as Prolog sees it after a successful call. */
  method ConsoleSettings(c: Console?, opts: seq<Term>) returns (r: Outcome, bound: seq<Term>)
    modifies c
    ensures c == null ==> r == Fail
    ensures c != null ==>
      var run := Settings.Settings(old(c.props), opts);
      c.props == run.props &&
      (run.result.Ok? ==> r == Succeed && bound == run.result.value) &&
      (run.result.Raise? ==> r == Throw(run.result.error))
    ensures c != null ==> c.history == old(c.history) && c.width == old(c.width) && c.height == old(c.height)
  {
    if c == null {
      return Fail, [];
    }
    bound := [];
    var i := 0;
    SettingsLoopEntry(c.props, opts);
    while i < |opts|
      invariant 0 <= i <= |opts|
      invariant c.history == old(c.history) && c.width == old(c.width) && c.height == old(c.height)
      invariant Remaining(old(c.props), opts, c.props, bound, i)
    {
      ghost var props := c.props;
      var err, option := SetOne(c, opts[i]);
      SettingsLoopStep(old(c.props), opts, props, bound, i);
      if err.Some? {
        return Throw(err.value), bound;
      }
      bound := bound + [option];
      i := i + 1;
    }
    assert opts[|opts|..] == [];
    r := Succeed;
  }

  /** The body of the loop over the options: one option read or written
      through `unify`, as `ApplyOption` says. */
  method SetOne(c: Console, opt: Term) returns (err: Option<Error>, option: Term)
    modifies c
    ensures var a := ApplyOption(old(c.props), opt);
      (a.Raise? ==> err == Some(a.error) && c.props == old(c.props)) &&
      (a.Ok? ==> err == None && c.props == a.value.props && option == a.value.option)
    ensures c.history == old(c.history) && c.width == old(c.width) && c.height == old(c.height)
  {
    option := opt;
    var na := NameAndArity(opt);
    if na.Raise? {
      return Some(na.error), opt;
    }
    if na.value.arity != 1 {
      return Some(PropertiesHaveArity1), opt;
    }
    var pid := IndexOfProperty(c.props, na.value.name);
    if pid < 0 {
      return Some(PropertyNotFound), opt;
    }
    var u := Unify(c.props[pid], opt.args[0]);
    if u.Raise? {
      return Some(u.error), opt;
    }
    err := None;
    match u.value {
      case Bound(t) =>
        option := Compound(na.value.name, [t]);
      case Written(s) =>
        c.props := c.props[pid := c.props[pid].(slot := s)];
    }
  }

  /** The loop invariant of `ConsoleSettings`: the run over all the options
      from the original table `p0` is the run over the options from `i` on,
      from the current table, after the `bound` options already done. */
  ghost predicate Remaining(p0: seq<Property>, opts: seq<Term>, props: seq<Property>, bound: seq<Term>, i: nat)
    requires i <= |opts|
  {
    var rest := Settings.Settings(props, opts[i..]);
    Settings.Settings(p0, opts) == Run(rest.props, Prepend(bound, rest.result))
  }

  lemma SettingsLoopEntry(p0: seq<Property>, opts: seq<Term>)
    ensures Remaining(p0, opts, p0, [], 0)
  {
    assert opts[0..] == opts;
    match Settings.Settings(p0, opts).result {
      case Ok(v) => assert [] + v == v;
      case Raise(_) =>
    }
  }

  /** One turn of the loop: an option that raises ends the run with its
      exception; any other moves the invariant on by one. */
  lemma SettingsLoopStep(p0: seq<Property>, opts: seq<Term>, props: seq<Property>, bound: seq<Term>, i: nat)
    requires i < |opts| && Remaining(p0, opts, props, bound, i)
    ensures var a := ApplyOption(props, opts[i]);
      (a.Raise? ==> Settings.Settings(p0, opts) == Run(props, Raise(a.error))) &&
      (a.Ok? ==> Remaining(p0, opts, a.value.props, bound + [a.value.option], i + 1))
  {
    assert opts[i..][0] == opts[i] && opts[i..][1..] == opts[i + 1..];
    var a := ApplyOption(props, opts[i]);
    if a.Ok? {
      PrependTwice(bound, [a.value.option], Settings.Settings(a.value.props, opts[i + 1..]).result);
    }
  }

  // ---------------------------------------------------------------------
  // win_window_pos(+Options)

  /** `win_window_pos/1`: without a console or a parent widget it fails;
      otherwise it applies the options to the parent widget in list order,
      ending at the first it does not recognise. */
  method WinWindowPos(c: Console?, opts: seq<Term>, cell: Window.Cell) returns (r: Outcome)
    modifies if c != null && c.frame != null then {c.frame} else {}
    ensures c == null || c.frame == null ==> r == Fail
    ensures c != null && c.frame != null ==>
      var run := Window.WindowPos(old(c.frame.Geometry()), opts, cell);
      c.frame.Geometry() == run.g && r == run.outcome && c.frame.menuBar == old(c.frame.menuBar)
  {
    if c == null || c.frame == null {
      return Fail;
    }
    var w := c.frame;
    var i := 0;
    while i < |opts|
      invariant 0 <= i <= |opts|
      invariant w.menuBar == old(w.menuBar)
      invariant Window.WindowPos(old(w.Geometry()), opts, cell) == Window.WindowPos(w.Geometry(), opts[i..], cell)
    {
      var opt := opts[i];
      assert opts[i..][0] == opt && opts[i..][1..] == opts[i + 1..];
      var na := NameAndArity(opt);
      if na.Raise? {
        return Throw(na.error);
      }
      var name, arity := na.value.name, na.value.arity;
      if arity == 2 && name == "size" {
        var width := AsLong(opt.args[0]);
        if width.Raise? { return Throw(width.error); }
        var height := AsLong(opt.args[1]);
        if height.Raise? { return Throw(height.error); }
        w.width, w.height := Wrap32(cell.w * width.value), Wrap32(cell.h * height.value);
      } else if arity == 2 && name == "position" {
        var x := AsLong(opt.args[0]);
        if x.Raise? { return Throw(x.error); }
        var y := AsLong(opt.args[1]);
        if y.Raise? { return Throw(y.error); }
        w.x, w.y := Wrap32(x.value), Wrap32(y.value);
      } else if arity == 1 && name == "zorder" {
      } else if arity == 1 && name == "show" {
        var b := NameAndArity(opt.args[0]);
        if b.Raise? { return Throw(b.error); }
        w.visible := b.value.name == "true";
      } else if arity == 0 && name == "activate" {
        w.active := true;
      } else {
        return Fail;
      }
      i := i + 1;
    }
    r := Succeed;
  }

  // ---------------------------------------------------------------------
  // Menus

  /** `win_has_menu/0`, and the condition under which the menu closures do
      anything: the console sits directly inside a `QMainWindow`. */
  function WinHasMenu(c: Console?): (r: Outcome)
    ensures r == Succeed || r == Fail
    ensures r == Succeed <==> c != null && c.frame != null && c.frame.isMainWindow
  {
    if c != null && c.frame != null && c.frame.isMainWindow then Succeed else Fail
  }

  /** `win_insert_menu/2`: true whenever there is a console; the menu bar of
      a main-window parent changes as `InsertMenu` says, any other state is
      left alone. */
  method WinInsertMenu(c: Console?, name: string, before: string) returns (r: Outcome)
    modifies if c != null && c.frame != null then {c.frame} else {}
    ensures r == if c != null then Succeed else Fail
    ensures c != null && c.frame != null ==>
      c.frame.Geometry() == old(c.frame.Geometry()) &&
      c.frame.menuBar == if WinHasMenu(c) == Succeed then InsertMenu(old(c.frame.menuBar), name, before) else old(c.frame.menuBar)
  {
    if c == null {
      return Fail;
    }
    if WinHasMenu(c) == Succeed {
      var f := c.frame;
      var k := FindTitle(f.menuBar, name);
      if k < 0 {
        k := FindTitle(f.menuBar, before);
        if k >= 0 {
          f.menuBar := InsertAt(f.menuBar, k, Menu(name, []));
        } else if before == "-" {
          f.menuBar := f.menuBar + [Menu(name, [])];
        }
      }
    }
    r := Succeed;
  }

  /** `win_insert_menu_item/4`: true whenever there is a console; on a
      main-window parent every pulldown titled `pulldown`, in bar order,
      gets the body until one body returns. */
  method WinInsertMenuItem(c: Console?, pulldown: string, name: string, before: string, goal: string)
    returns (r: Outcome)
    modifies if c != null && c.frame != null then {c.frame} else {}
    ensures r == if c != null then Succeed else Fail
    ensures c != null && c.frame != null ==>
      c.frame.Geometry() == old(c.frame.Geometry()) &&
      c.frame.menuBar ==
        if WinHasMenu(c) == Succeed then InsertItemInBar(old(c.frame.menuBar), pulldown, name, before, goal)
        else old(c.frame.menuBar)
  {
    if c == null {
      return Fail;
    }
    r := Succeed;
    if WinHasMenu(c) == Succeed {
      var f := c.frame;
      f.menuBar := InsertItemInMenus(f.menuBar, pulldown, name, before, goal);
    }
  }

  /** The closure of `win_insert_menu_item/4` on a main window's menu bar:
      every pulldown titled `pulldown`, in bar order, gets the body until one
      body returns; the result is the bar the closure leaves. */
  method InsertItemInMenus(bar: seq<Menu>, pulldown: string, name: string, before: string, goal: string)
    returns (menus: seq<Menu>)
    ensures menus == InsertItemInBar(bar, pulldown, name, before, goal)
  {
    // `foreach` iterates over a copy of the bar's action list; `menus` is
    // the bar as the pulldowns are changed one by one
    menus := bar;
    ghost var done: seq<Menu> := [];
    var i := 0;
    assert bar[0..] == bar;
    while i < |bar|
      invariant 0 <= i <= |bar| && |done| == i
      invariant menus == done + bar[i..]
      invariant BarDone(bar, done, i, pulldown, name, before, goal)
    {
      if bar[i].title == pulldown {
        var items, returned := ItemBody(bar[i].items, name, before, goal);
        BarStepMatch(bar, done, i, pulldown, name, before, goal, items, returned);
        menus := menus[i := bar[i].(items := items)];
        SeqUpdate(done, bar, i, bar[i].(items := items));
        done := done + [bar[i].(items := items)];
        if returned {
          return;
        }
      } else {
        BarStepOther(bar, done, i, pulldown, name, before, goal);
        SeqUpdate(done, bar, i, bar[i]);
        done := done + [bar[i]];
      }
      i := i + 1;
    }
    BarFinished(bar, done, pulldown, name, before, goal);
  }

  /** The loop invariant of `InsertItemInMenus`: the pulldowns before `i`
      are `done`, and the closure's result is `done` followed by what it makes
      of the rest of the bar. */
  ghost predicate BarDone(bar: seq<Menu>, done: seq<Menu>, i: nat, pulldown: string, name: string, before: string, goal: string)
    requires i <= |bar|
  {
    done + InsertItemInBar(bar[i..], pulldown, name, before, goal) == InsertItemInBar(bar, pulldown, name, before, goal)
  }

  lemma BarFinished(bar: seq<Menu>, done: seq<Menu>, pulldown: string, name: string, before: string, goal: string)
    requires BarDone(bar, done, |bar|, pulldown, name, before, goal)
    ensures done == InsertItemInBar(bar, pulldown, name, before, goal)
  {
    assert bar[|bar|..] == [];
    assert done + [] == done;
  }

  /** One turn of the closure's loop over the bar, at a pulldown with the
      matching title: it gets the body, and a body that returns ends the loop
      with the rest of the bar untouched. */
  lemma BarStepMatch(bar: seq<Menu>, done: seq<Menu>, i: nat, pulldown: string, name: string, before: string, goal: string,
                     items: seq<Item>, returned: bool)
    requires i < |bar| && BarDone(bar, done, i, pulldown, name, before, goal) && bar[i].title == pulldown
    requires Placed(items, returned) == InsertItem(bar[i].items, name, before, goal)
    ensures returned ==> (done + [bar[i].(items := items)]) + bar[i + 1..] == InsertItemInBar(bar, pulldown, name, before, goal)
    ensures !returned ==> BarDone(bar, done + [bar[i].(items := items)], i + 1, pulldown, name, before, goal)
  {
    BarUnfold(bar, i, pulldown, name, before, goal);
    BarJoin(done, bar[i].(items := items), if returned then bar[i + 1..] else InsertItemInBar(bar[i + 1..], pulldown, name, before, goal));
  }

  /** One turn of the closure's loop over the bar, at a pulldown with another
      title: it is kept as it is. */
  lemma BarStepOther(bar: seq<Menu>, done: seq<Menu>, i: nat, pulldown: string, name: string, before: string, goal: string)
    requires i < |bar| && BarDone(bar, done, i, pulldown, name, before, goal) && bar[i].title != pulldown
    ensures BarDone(bar, done + [bar[i]], i + 1, pulldown, name, before, goal)
  {
    BarUnfold(bar, i, pulldown, name, before, goal);
    BarJoin(done, bar[i], InsertItemInBar(bar[i + 1..], pulldown, name, before, goal));
  }

  lemma BarJoin(done: seq<Menu>, m: Menu, rest: seq<Menu>)
    ensures (done + [m]) + rest == done + ([m] + rest)
  {
  }

  /** The closure's result on the bar from `i` on, one pulldown unfolded. */
  lemma BarUnfold(bar: seq<Menu>, i: nat, pulldown: string, name: string, before: string, goal: string)
    requires i < |bar|
    ensures InsertItemInBar(bar[i..], pulldown, name, before, goal) ==
      if bar[i].title == pulldown then
        var p := InsertItem(bar[i].items, name, before, goal);
        [bar[i].(items := p.items)] + (if p.returned then bar[i + 1..] else InsertItemInBar(bar[i + 1..], pulldown, name, before, goal))
      else [bar[i]] + InsertItemInBar(bar[i + 1..], pulldown, name, before, goal)
  {
    assert bar[i..][0] == bar[i] && bar[i..][1..] == bar[i + 1..];
  }

  /** Replacing element `i` of `done + bar[i..]` leaves `done + [m] + bar[i + 1..]`. */
  lemma SeqUpdate(done: seq<Menu>, bar: seq<Menu>, i: nat, m: Menu)
    requires |done| == i < |bar|
    ensures (done + bar[i..])[i := m] == (done + [m]) + bar[i + 1..]
  {
  }

  // ---------------------------------------------------------------------
  // rl_add_history(+Line), tty_size(-Rows, -Cols)

  /** `rl_add_history/1`: true whenever there is a console; a non-empty line
      is appended to the console's history, an empty one is ignored. */
  method RlAddHistory(c: Console?, line: string) returns (r: Outcome)
    modifies c
    ensures r == if c != null then Succeed else Fail
    ensures c != null ==>
      c.history == (if line != "" then old(c.history) + [line] else old(c.history)) &&
      c.props == old(c.props) && c.width == old(c.width) && c.height == old(c.height)
  {
    if c == null {
      return Fail;
    }
    if line != "" {
      c.history := c.history + [line];
    }
    r := Succeed;
  }

  /** How many whole cells of `cell` pixels fit in `pixels`: C's `/` on two
      non-negative operands. */
  function CellsIn(pixels: nat, cell: int): (n: nat)
    requires cell > 0
    ensures n * cell <= pixels < (n + 1) * cell
  {
    pixels / cell
  }

  datatype TtySize = TtySize(rows: nat, cols: nat)

  /** `tty_size/2`: the rows and columns of whole character cells that fit in
      the console widget, or nothing when there is no console. */
  function TtySizeOf(c: Console?, cell: Window.Cell): (r: Option<TtySize>)
    requires cell.w > 0 && cell.h > 0
    reads c
    ensures r.Some? <==> c != null
    ensures r.Some? ==>
      r.value.rows * cell.h <= c.height < (r.value.rows + 1) * cell.h &&
      r.value.cols * cell.w <= c.width < (r.value.cols + 1) * cell.w
  {
    if c == null then None
    else Some(TtySize(CellsIn(c.height, cell.h), CellsIn(c.width, cell.w)))
  }
}

=== FILE: prolog.dfy ===
/** Prolog-side values as the foreign predicates see them: term tags, the
    exceptions the predicates raise, and the C integer widths the conversions
    between Prolog integers and C integers go through. */
module Prolog {

  datatype Option<+T> = None | Some(value: T)

  const TWO_32: int := 0x1_0000_0000
  const TWO_31: int := 0x8000_0000

  /** A C `int` / `qint32`. */
  type Int32 = n: int | -0x8000_0000 <= n < 0x8000_0000
  /** A C `unsigned int`. */
  type UInt32 = n: int | 0 <= n < 0x1_0000_0000

  predicate IsInt32(n: int) { -TWO_31 <= n < TWO_31 }
  /** Fits a C `long` on an LP64 host. */
  predicate IsLong(n: int) { -0x8000_0000_0000_0000 <= n < 0x8000_0000_0000_0000 }

  /** The value a C `int` receives when a wider integer is narrowed into it
      (two's-complement wrap-around, as the compilers in use do it). */
  function Wrap32(n: int): (r: Int32)
    ensures (r - n) % TWO_32 == 0
    ensures IsInt32(n) ==> r == n
  {
    var m := n % TWO_32;
    if m < TWO_31 then m else m - TWO_32
  }

  /** The value an `unsigned int` receives from a signed `int`. */
  function ToUInt32(n: Int32): (r: UInt32)
    ensures (r - n) % TWO_32 == 0
    ensures n >= 0 ==> r == n
    ensures n < 0 ==> r == n + TWO_32
  {
    n % TWO_32
  }

  /** The bit pattern of a C `double`; it is only copied, never computed with. */
  datatype Double = Double(bits: bv64)

  /** The tag of a Prolog term (`PL_VARIABLE`, `PL_INTEGER`, `PL_ATOM`,
      `PL_FLOAT`, `PL_STRING`, `PL_TERM`) with its content. */
  datatype Term =
    | Var
    | Integer(n: int)
    | Atom(name: string)
    | Float(f: Double)
    | Str(text: string)
    | Compound(functor: string, args: seq<Term>)

  /** The exceptions raised towards Prolog. The first three are the atoms
      `'property type mismatch'`, `'property not found'` and
      `'properties have arity 1'`; `TypeError` is the type error the C++
      interface raises when a term does not convert to the C type asked for. */
  datatype Error =
    | PropertyTypeMismatch
    | PropertyNotFound
    | PropertiesHaveArity1
    | TypeError(expected: string)

  datatype Result<+T> = Ok(value: T) | Raise(error: Error)

  /** How a foreign predicate ends: it succeeds, fails, or raises. */
  datatype Outcome = Succeed | Fail | Throw(error: Error)

  datatype NameArity = NameArity(name: string, arity: nat)

  /** `PlTerm::name()` / `PlTerm::arity()`: an atom has arity 0, a compound its
      number of arguments, any other term is a type error. */
  function NameAndArity(t: Term): (r: Result<NameArity>)
    ensures t.Atom? ==> r == Ok(NameArity(t.name, 0))
    ensures t.Compound? ==> r == Ok(NameArity(t.functor, |t.args|))
    ensures !(t.Atom? || t.Compound?) ==> r == Raise(TypeError("compound"))
  {
    match t
    case Atom(a) => Ok(NameArity(a, 0))
    case Compound(f, args) => Ok(NameArity(f, |args|))
    case _ => Raise(TypeError("compound"))
  }

  /** `long(t)`: an integer that fits a C `long`, or a type error. */
  function AsLong(t: Term): (r: Result<int>)
    ensures r.Ok? <==> t.Integer? && IsLong(t.n)
    ensures r.Ok? ==> r.value == t.n
    ensures r.Raise? ==> r.error == TypeError("integer")
  {
    if t.Integer? && IsLong(t.n) then Ok(t.n) else Raise(TypeError("integer"))
  }
}

=== FILE: properties.dfy ===
/** The bridge between a Prolog term and one Qt property of the console
    (`unify` in pqConsole.cpp): with an unbound variable it reads the
    property, with a bound term it writes it, and every combination of term
    tag and property type that it does not handle raises
    `'property type mismatch'`. */
module Properties {
  import opened Prolog

  /** One key of a `QMetaEnum` with its integer value. */
  datatype EnumKey = EnumKey(key: string, value: Int32)

  /** The declared type of a property together with its current value. An
      `Int` property that is an enumeration carries its key table; flag
      enumerations are not representable (the source asserts against them). */
  datatype Slot =
    | BoolSlot(b: bool)
    | IntSlot(i: Int32, keys: Option<seq<EnumKey>>)
    | UIntSlot(u: UInt32)
    | StringSlot(s: string)
    | DoubleSlot(d: Double)
    | OtherSlot(typeName: string)

  /** A property of the console object; `writable` says whether
      `QMetaProperty::write` succeeds on it. */
  datatype Property = Property(name: string, writable: bool, slot: Slot)

  predicate IsEnum(s: Slot) { s.IntSlot? && s.keys.Some? }

  /** Same declared type (and the same enumeration table). */
  predicate SameKind(a: Slot, b: Slot)
  {
    match a
    case BoolSlot(_) => b.BoolSlot?
    case IntSlot(_, keys) => b.IntSlot? && b.keys == keys
    case UIntSlot(_) => b.UIntSlot?
    case StringSlot(_) => b.StringSlot?
    case DoubleSlot(_) => b.DoubleSlot?
    case OtherSlot(n) => b == OtherSlot(n)
  }

  /** `QMetaEnum::valueToKey`: the position of the first key with value `v`, or -1. */
  function ValueIndex(keys: seq<EnumKey>, v: int): (r: int)
    ensures -1 <= r < |keys|
    ensures r >= 0 ==> keys[r].value == v && forall j :: 0 <= j < r ==> keys[j].value != v
    ensures r == -1 <==> forall j :: 0 <= j < |keys| ==> keys[j].value != v
  {
    if keys == [] then -1
    else if keys[0].value == v then 0
    else
      var k := ValueIndex(keys[1..], v);
      if k == -1 then -1 else k + 1
  }

  /** The position of the first entry named `key`, or -1. */
  function KeyIndex(keys: seq<EnumKey>, key: string): (r: int)
    ensures -1 <= r < |keys|
    ensures r >= 0 ==> keys[r].key == key && forall j :: 0 <= j < r ==> keys[j].key != key
    ensures r == -1 <==> forall j :: 0 <= j < |keys| ==> keys[j].key != key
  {
    if keys == [] then -1
    else if keys[0].key == key then 0
    else
      var k := KeyIndex(keys[1..], key);
      if k == -1 then -1 else k + 1
  }

  /** `QMetaEnum::keyToValue`: the value of `key`, with -1 standing for "no such key". */
  function KeyToValue(keys: seq<EnumKey>, key: string): (r: Int32)
    ensures KeyIndex(keys, key) >= 0 ==> r == keys[KeyIndex(keys, key)].value
    ensures (forall j :: 0 <= j < |keys| ==> keys[j].key != key) ==> r == -1
  {
    var k := KeyIndex(keys, key);
    if k == -1 then -1 else keys[k].value
  }

  /** What a successful `unify` did: bound the variable, or stored a new value. */
  datatype Effect = Bound(t: Term) | Written(slot: Slot)

  /** The term a read produces for a value, or `None` for the types a read
      does not handle (Double and anything else). */
  function ReadSlot(s: Slot): (r: Option<Term>)
    ensures r.None? <==> s.DoubleSlot? || s.OtherSlot?
  {
    match s
    case BoolSlot(b) => Some(Atom(if b then "true" else "false"))
    case IntSlot(i, keys) =>
      if keys.Some? && ValueIndex(keys.value, i) >= 0 then
        Some(Atom(keys.value[ValueIndex(keys.value, i)].key))
      else Some(Integer(i))
    case UIntSlot(u) => Some(Integer(u))
    case StringSlot(s) => Some(Atom(s))
    case _ => None
  }

  /** `unify(p, o, v)`: the decision table over the tag of `v` and the
      declared type of `p`. */
  function Unify(p: Property, v: Term): (r: Result<Effect>)
    ensures r.Ok? ==> (r.value.Bound? <==> v.Var?)
    ensures r.Ok? && r.value.Written? ==> SameKind(p.slot, r.value.slot)
    ensures v.Var? ==> (r.Ok? <==> !(p.slot.DoubleSlot? || p.slot.OtherSlot?))
    ensures r.Raise? ==> r.error == PropertyTypeMismatch || (v.Integer? && r.error == TypeError("integer"))
  {
    match v
    case Var =>
      (match ReadSlot(p.slot)
       case Some(t) => Ok(Bound(t))
       case None => Raise(PropertyTypeMismatch))
    case Integer(n) =>
      if p.slot.IntSlot? || p.slot.UIntSlot? then
        // `qint32(v)` converts before the write is attempted
        if !IsInt32(n) then Raise(TypeError("integer"))
        else if !p.writable then Raise(PropertyTypeMismatch)
        else if p.slot.IntSlot? then Ok(Written(p.slot.(i := n)))
        else Ok(Written(UIntSlot(ToUInt32(n))))
      else Raise(PropertyTypeMismatch)
    case Atom(a) =>
      if p.slot.StringSlot? && p.writable then Ok(Written(StringSlot(a)))
      else if IsEnum(p.slot) then
        var i := KeyToValue(p.slot.keys.value, a);
        // the result of this write is not checked
        if i != -1 then Ok(Written(if p.writable then p.slot.(i := i) else p.slot))
        else Raise(PropertyTypeMismatch)
      else Raise(PropertyTypeMismatch)
    case Float(d) =>
      if p.slot.DoubleSlot? && p.writable then Ok(Written(DoubleSlot(d)))
      else Raise(PropertyTypeMismatch)
    case _ => Raise(PropertyTypeMismatch)
  }

  /** The property after `unify`: a read leaves it as it was. */
  function Updated(p: Property, e: Effect): (q: Property)
    ensures q.name == p.name && q.writable == p.writable
  {
    match e
    case Bound(_) => p
    case Written(s) => p.(slot := s)
  }

  // ---------------------------------------------------------------------
  // The read path, by declared type

  lemma ReadBool(p: Property, b: bool)
    requires p.slot == BoolSlot(b)
    ensures Unify(p, Var) == Ok(Bound(Atom(if b then "true" else "false")))
  {
  }

  /** An enumerated `Int` reads as the first key with its value, if there is
      one, and as the raw integer otherwise; a plain `Int` reads as the integer. */
  lemma ReadInt(p: Property)
    requires p.slot.IntSlot?
    ensures IsEnum(p.slot) && ValueIndex(p.slot.keys.value, p.slot.i) >= 0 ==>
      Unify(p, Var) == Ok(Bound(Atom(p.slot.keys.value[ValueIndex(p.slot.keys.value, p.slot.i)].key)))
    ensures !(IsEnum(p.slot) && (exists j :: 0 <= j < |p.slot.keys.value| && p.slot.keys.value[j].value == p.slot.i))
            ==> Unify(p, Var) == Ok(Bound(Integer(p.slot.i)))
  {
  }

  /** An unsigned `UInt` reads as its integer and a `String` as the atom of
      its text, whether or not the property is writable. */
  lemma ReadUIntString(p: Property)
    ensures p.slot.UIntSlot? ==> Unify(p, Var) == Ok(Bound(Integer(p.slot.u)))
    ensures p.slot.StringSlot? ==> Unify(p, Var) == Ok(Bound(Atom(p.slot.s)))
  {
  }

  lemma ReadDoubleMismatch(p: Property)
    requires p.slot.DoubleSlot? || p.slot.OtherSlot?
    ensures Unify(p, Var) == Raise(PropertyTypeMismatch)
  {
  }

  // ---------------------------------------------------------------------
  // The write path

  /** Which tags are written to which types: an integer only to `Int`/`UInt`,
      an atom only to `String` or to an enumerated `Int`, a float only to
      `Double`; every bound term leaves a read untouched. */
  lemma WriteAccepts(p: Property, v: Term)
    requires !v.Var?
    ensures Unify(p, v).Ok? ==> Unify(p, v).value.Written?
    ensures Unify(p, v).Ok? ==>
      (v.Integer? && (p.slot.IntSlot? || p.slot.UIntSlot?)) ||
      (v.Atom? && (p.slot.StringSlot? || IsEnum(p.slot))) ||
      (v.Float? && p.slot.DoubleSlot?)
    ensures Unify(p, v).Ok? <==>
      (v.Integer? && (p.slot.IntSlot? || p.slot.UIntSlot?) && IsInt32(v.n) && p.writable) ||
      (v.Atom? && p.slot.StringSlot? && p.writable) ||
      (v.Atom? && IsEnum(p.slot) && KeyToValue(p.slot.keys.value, v.name) != -1) ||
      (v.Float? && p.slot.DoubleSlot? && p.writable)
  {
  }

  /** What an accepted write stores: an integer on an `Int` (enumerated or
      not) its own value, an integer on a `UInt` its unsigned reading, an atom
      its text on a `String`, a key its value on a writable enumeration, and a
      float its value on a `Double`. On a read-only enumeration the write
      fails unnoticed and the old value stays. */
  lemma WriteStores(p: Property, v: Term)
    requires !v.Var? && Unify(p, v).Ok?
    ensures v.Integer? && p.slot.IntSlot? ==> IsInt32(v.n) && Unify(p, v).value == Written(p.slot.(i := v.n))
    ensures v.Integer? && p.slot.UIntSlot? ==> IsInt32(v.n) && Unify(p, v).value == Written(UIntSlot(ToUInt32(v.n)))
    ensures v.Atom? && p.slot.StringSlot? ==> Unify(p, v).value == Written(StringSlot(v.name))
    ensures v.Atom? && IsEnum(p.slot) ==>
      Unify(p, v).value == Written(if p.writable then p.slot.(i := KeyToValue(p.slot.keys.value, v.name)) else p.slot)
    ensures v.Float? ==> p.slot.DoubleSlot? && Unify(p, v).value == Written(DoubleSlot(v.f))
  {
  }

  /** An integer outside the 32-bit range on an `Int` or `UInt` raises the
      integer type error of the `qint32` conversion, before any write, whether
      or not the property is writable. */
  lemma Int32Error(p: Property, n: int)
    requires (p.slot.IntSlot? || p.slot.UIntSlot?) && !IsInt32(n)
    ensures Unify(p, Integer(n)) == Raise(TypeError("integer"))
  {
  }

  /** An atom cannot set a boolean property, an integer cannot set a string
      property, and an unknown enumeration key is rejected. */
  lemma Mismatches(p: Property, a: string, n: int)
    ensures p.slot.BoolSlot? ==> Unify(p, Atom(a)) == Raise(PropertyTypeMismatch)
    ensures p.slot.StringSlot? ==> Unify(p, Integer(n)) == Raise(PropertyTypeMismatch)
    ensures IsEnum(p.slot) && KeyIndex(p.slot.keys.value, a) == -1
            ==> Unify(p, Atom(a)) == Raise(PropertyTypeMismatch)
  {
  }

  /** `keyToValue` answers -1 for a missing key, so a key whose own value is
      -1 is refused like a missing one. */
  lemma MinusOneKeyRefused(p: Property, a: string)
    requires IsEnum(p.slot)
    requires exists j ::
               && 0 <= j < |p.slot.keys.value| && p.slot.keys.value[j] == EnumKey(a, -1)
               && (forall i :: 0 <= i < j ==> p.slot.keys.value[i].key != a)
    ensures Unify(p, Atom(a)) == Raise(PropertyTypeMismatch)
  {
    var keys := p.slot.keys.value;
    var j :| 0 <= j < |keys| && keys[j] == EnumKey(a, -1) && forall i :: 0 <= i < j ==> keys[i].key != a;
    var k := KeyIndex(keys, a);
    assert k == j;
  }

  // ---------------------------------------------------------------------
  // Round trips: write, then read

  lemma IntRoundTrip(p: Property, n: int)
    requires p.slot.IntSlot? && !IsEnum(p.slot) && p.writable && IsInt32(n)
    ensures Unify(p, Integer(n)).Ok?
    ensures Unify(Updated(p, Unify(p, Integer(n)).value), Var) == Ok(Bound(Integer(n)))
  {
  }

  /** An unsigned property written with a negative integer reads back the
      integer plus 2^32. */
  lemma UIntRoundTrip(p: Property, n: int)
    requires p.slot.UIntSlot? && p.writable && IsInt32(n)
    ensures Unify(p, Integer(n)).Ok?
    ensures Unify(Updated(p, Unify(p, Integer(n)).value), Var)
            == Ok(Bound(Integer(if n >= 0 then n else n + TWO_32)))
  {
  }

  lemma StringRoundTrip(p: Property, s: string)
    requires p.slot.StringSlot? && p.writable
    ensures Unify(p, Atom(s)).Ok?
    ensures Unify(Updated(p, Unify(p, Atom(s)).value), Var) == Ok(Bound(Atom(s)))
  {
  }

  /** Writing an enumeration key reads back that key when it is the first
      key carrying its value (otherwise the earlier alias comes back). */
  lemma EnumRoundTrip(p: Property, j: nat)
    requires IsEnum(p.slot) && p.writable
    requires j < |p.slot.keys.value| && p.slot.keys.value[j].value != -1
    requires forall i :: 0 <= i < j ==>
      p.slot.keys.value[i].key != p.slot.keys.value[j].key &&
      p.slot.keys.value[i].value != p.slot.keys.value[j].value
    ensures Unify(p, Atom(p.slot.keys.value[j].key)).Ok?
    ensures Unify(Updated(p, Unify(p, Atom(p.slot.keys.value[j].key)).value), Var)
            == Ok(Bound(Atom(p.slot.keys.value[j].key)))
  {
    var keys := p.slot.keys.value;
    var e := keys[j];
    var k := KeyIndex(keys, e.key);
    assert k == j;
    var q := p.(slot := p.slot.(i := e.value));
    assert Unify(p, Atom(e.key)) == Ok(Written(q.slot));
    var m := ValueIndex(keys, e.value);
    assert m == j;
  }

  /** A failed `unify` leaves the value alone, a successful one changes at
      most the value, never the declared type. */
  lemma UnifyKeepsKind(p: Property, v: Term)
    ensures Unify(p, v).Ok? ==> SameKind(p.slot, Updated(p, Unify(p, v).value).slot)
  {
  }
}

=== FILE: settings.dfy ===
/** The option list of `console_settings/1`, interpreted over the console's
    property table: each option `Name(Value)` is looked up by name and handed
    to `unify`, left to right; the first option that raises stops the run,
    and what the options before it wrote stays written. */
module Settings {
  import opened Prolog
  import opened Properties

  /** `QMetaObject::indexOfProperty`: the first property named `name` in
      lookup order, or -1. */
  function IndexOfProperty(props: seq<Property>, name: string): (r: int)
    ensures -1 <= r < |props|
    ensures r >= 0 ==> props[r].name == name && forall j :: 0 <= j < r ==> props[j].name != name
    ensures r == -1 <==> forall j :: 0 <= j < |props| ==> props[j].name != name
  {
    if props == [] then -1
    else if props[0].name == name then 0
    else
      var k := IndexOfProperty(props[1..], name);
      if k == -1 then -1 else k + 1
  }

  /** The table after one option, and the option as Prolog then sees it
      (its argument bound when the option was a query). */
  datatype Step = Step(props: seq<Property>, option: Term)

  /** The exceptions `console_settings/1` can raise. */
  predicate SettingsError(e: Error)
  {
    e == PropertyTypeMismatch || e == PropertyNotFound || e == PropertiesHaveArity1 ||
    e == TypeError("compound") || e == TypeError("integer")
  }

  /** One option: the arity is checked first, then the name, then `unify`.
      A step succeeds only on an option `Name(Value)` naming a property, and
      keeps the table's size. */
  function ApplyOption(props: seq<Property>, opt: Term): (r: Result<Step>)
    ensures r.Ok? ==> opt.Compound? && |opt.args| == 1 && IndexOfProperty(props, opt.functor) >= 0
    ensures r.Ok? ==> |r.value.props| == |props|
    ensures r.Raise? ==> SettingsError(r.error)
  {
    match NameAndArity(opt)
    case Raise(e) => Raise(e)
    case Ok(na) =>
      if na.arity != 1 then Raise(PropertiesHaveArity1)
      else
        var pid := IndexOfProperty(props, na.name);
        if pid < 0 then Raise(PropertyNotFound)
        else
          match Unify(props[pid], opt.args[0])
          case Raise(e) => Raise(e)
          case Ok(Bound(t)) => Ok(Step(props, Compound(na.name, [t])))
          case Ok(Written(s)) => Ok(Step(props[pid := props[pid].(slot := s)], opt))
  }

  /** The properties have the same names, the same writability and the same
      declared types, in the same order. */
  predicate SameSchema(a: seq<Property>, b: seq<Property>)
  {
    |a| == |b| &&
    forall i :: 0 <= i < |a| ==>
      a[i].name == b[i].name && a[i].writable == b[i].writable && SameKind(a[i].slot, b[i].slot)
  }

  /** A run over an option list: the final table and either the list of
      options as instantiated, or the exception that stopped it. */
  datatype Run = Run(props: seq<Property>, result: Result<seq<Term>>)

  function Prepend(done: seq<Term>, r: Result<seq<Term>>): Result<seq<Term>>
  {
    match r
    case Ok(rest) => Ok(done + rest)
    case Raise(e) => Raise(e)
  }

  /** Prepending in two steps is prepending the concatenation. */
  lemma PrependTwice(a: seq<Term>, b: seq<Term>, r: Result<seq<Term>>)
    ensures Prepend(a, Prepend(b, r)) == Prepend(a + b, r)
  {
    if r.Ok? {
      assert a + (b + r.value) == (a + b) + r.value;
    }
  }

  /** The run over the option list: the options in list order, stopping at
      the first that raises. The table keeps its size, and only the
      exceptions of a single option can end the run. */
  function Settings(props: seq<Property>, opts: seq<Term>): (r: Run)
    ensures |r.props| == |props|
    ensures r.result.Raise? ==> SettingsError(r.result.error)
    decreases |opts|
  {
    if opts == [] then Run(props, Ok([]))
    else
      match ApplyOption(props, opts[0])
      case Raise(e) => Run(props, Raise(e))
      case Ok(s) =>
        var rest := Settings(s.props, opts[1..]);
        Run(rest.props, Prepend([s.option], rest.result))
  }

  /** The checks of one option in the order the source makes them: a term
      with no name is a type error, an arity other than 1 raises
      'properties have arity 1', an unknown name raises 'property not found',
      and otherwise the option is what `unify` makes of its argument. */
  lemma ApplyOptionOutcome(props: seq<Property>, opt: Term)
    ensures !(opt.Atom? || opt.Compound?) ==> ApplyOption(props, opt) == Raise(TypeError("compound"))
    ensures opt.Atom? || (opt.Compound? && |opt.args| != 1) ==> ApplyOption(props, opt) == Raise(PropertiesHaveArity1)
    ensures opt.Compound? && |opt.args| == 1 && IndexOfProperty(props, opt.functor) == -1
            ==> ApplyOption(props, opt) == Raise(PropertyNotFound)
    ensures opt.Compound? && |opt.args| == 1 && IndexOfProperty(props, opt.functor) >= 0 ==>
      var pid := IndexOfProperty(props, opt.functor);
      var u := Unify(props[pid], opt.args[0]);
      ApplyOption(props, opt) ==
        if u.Raise? then Raise(u.error)
        else if u.value.Bound? then Ok(Step(props, Compound(opt.functor, [u.value.t])))
        else Ok(Step(props[pid := Updated(props[pid], u.value)], opt))
  {
  }

  lemma SameSchemaTrans(a: seq<Property>, b: seq<Property>, c: seq<Property>)
    requires SameSchema(a, b) && SameSchema(b, c)
    ensures SameSchema(a, c)
  {
  }

  /** One option never adds, removes, renames or retypes a property; it
      changes at most the value of the property it names. */
  lemma ApplyOptionSchema(props: seq<Property>, opt: Term)
    ensures ApplyOption(props, opt).Ok? ==> SameSchema(props, ApplyOption(props, opt).value.props)
    ensures ApplyOption(props, opt).Ok? ==>
      forall i :: 0 <= i < |props| && props[i].name != NameAndArity(opt).value.name ==>
        ApplyOption(props, opt).value.props[i] == props[i]
  {
    match NameAndArity(opt)
    case Raise(_) =>
    case Ok(na) =>
      if na.arity == 1 {
        var pid := IndexOfProperty(props, na.name);
        if pid >= 0 {
          UnifyKeepsKind(props[pid], opt.args[0]);
        }
      }
  }

  /** However the run ends, the table keeps its schema. */
  lemma {:induction false} SettingsSchema(props: seq<Property>, opts: seq<Term>)
    ensures SameSchema(props, Settings(props, opts).props)
    decreases |opts|
  {
    if opts != [] {
      ApplyOptionSchema(props, opts[0]);
      match ApplyOption(props, opts[0])
      case Raise(_) =>
      case Ok(s) =>
        SettingsSchema(s.props, opts[1..]);
        SameSchemaTrans(props, s.props, Settings(s.props, opts[1..]).props);
    }
  }

  /** Left to right, stopping at the first exception: a run over `a + b` is
      the run over `a`, continued over `b` from where `a` left the table only
      when `a` raised nothing. */
  lemma {:induction false} SettingsAppend(props: seq<Property>, a: seq<Term>, b: seq<Term>)
    ensures Settings(props, a + b) ==
      (var ra := Settings(props, a);
       if ra.result.Raise? then ra
       else
         var rb := Settings(ra.props, b);
         Run(rb.props, Prepend(ra.result.value, rb.result)))
    decreases |a|
  {
    if a == [] {
      assert a + b == b;
      var rb := Settings(props, b);
      match rb.result
      case Ok(v) => assert [] + v == v;
      case Raise(_) =>
    } else {
      assert (a + b)[0] == a[0];
      assert (a + b)[1..] == a[1..] + b;
      match ApplyOption(props, a[0])
      case Raise(_) =>
      case Ok(s) =>
        SettingsAppend(s.props, a[1..], b);
        var ra' := Settings(s.props, a[1..]);
        if ra'.result.Ok? {
          PrependTwice([s.option], ra'.result.value, Settings(ra'.props, b).result);
        }
    }
  }

  /** When the first option applies, every longer prefix of the run
      continues from the table that option left. */
  lemma SettingsPrefixes(props: seq<Property>, opts: seq<Term>, s: Step)
    requires opts != [] && ApplyOption(props, opts[0]) == Ok(s)
    ensures forall k :: 1 <= k <= |opts| ==>
      Settings(props, opts[..k]).props == Settings(s.props, opts[1..][..k - 1]).props
  {
    forall k | 1 <= k <= |opts|
      ensures Settings(props, opts[..k]).props == Settings(s.props, opts[1..][..k - 1]).props
    {
      assert opts[..k][0] == opts[0];
      assert opts[..k][1..] == opts[1..][..k - 1];
    }
  }

  /** The run succeeds exactly when no option raises, and then it returns as
      many instantiated options as there were options. */
  lemma {:induction false} SettingsSucceeds(props: seq<Property>, opts: seq<Term>)
    ensures Settings(props, opts).result.Ok? ==> |Settings(props, opts).result.value| == |opts|
    ensures Settings(props, opts).result.Ok? <==>
      forall k :: 0 <= k < |opts| ==> ApplyOption(Settings(props, opts[..k]).props, opts[k]).Ok?
    decreases |opts|
  {
    if opts != [] {
      assert opts[..0] == [];
      match ApplyOption(props, opts[0])
      case Raise(_) =>
      case Ok(s) =>
        SettingsSucceeds(s.props, opts[1..]);
        SettingsPrefixes(props, opts, s);
        if Settings(props, opts).result.Ok? {
          forall k | 0 <= k < |opts|
            ensures ApplyOption(Settings(props, opts[..k]).props, opts[k]).Ok?
          {
            if k > 0 { assert opts[k] == opts[1..][k - 1]; }
          }
        } else {
          var j :| 0 <= j < |opts[1..]| &&
            !ApplyOption(Settings(s.props, opts[1..][..j]).props, opts[1..][j]).Ok?;
          assert opts[1..][j] == opts[j + 1];
        }
    }
  }

  /** Queries only (every argument an unbound variable) leave every value as it was. */
  lemma {:induction false} QueriesChangeNothing(props: seq<Property>, opts: seq<Term>)
    requires forall k :: 0 <= k < |opts| ==> opts[k].Compound? && |opts[k].args| == 1 && opts[k].args[0].Var?
    ensures Settings(props, opts).props == props
    decreases |opts|
  {
    if opts != [] {
      match ApplyOption(props, opts[0])
      case Raise(_) =>
      case Ok(s) =>
        assert s.props == props;
        QueriesChangeNothing(s.props, opts[1..]);
    }
  }
}

=== FILE: widgets.dfy ===
/** Finding a console in the widget hierarchy (`search_widget`,
    `console_by_thread`, `console_peek_first`): a depth-first search from
    each top-level widget in turn, driven by an explicit stack, returning the
    first widget the predicate accepts. */
module Widgets {
  import opened Prolog
  import opened Gui

  /** What a widget is, as far as the search cares. */
  datatype Kind = Edit(console: Console) | Plain

  /** A `QObject` of the hierarchy with its children in child order;
      `isWidget` is `isWidgetType()`. */
  datatype Widget = Widget(kind: Kind, isWidget: bool, children: seq<Widget>)

  // ---------------------------------------------------------------------
  // The visiting order

  /** The order in which the search visits `w` and what lies below it: `w`
      itself, then its widget children's subtrees, last child first. */
  function Order(w: Widget): (r: seq<Widget>)
    ensures |r| >= 1 && r[0] == w
    decreases w
  {
    [w] + Pending(w.children)
  }

  /** The subtrees of the widget children `cs` once they are pushed: the last
      one pushed is popped, and its subtree finished, first. Children that are
      not widgets are never pushed. */
  function Pending(cs: seq<Widget>): seq<Widget>
    decreases cs
  {
    if cs == [] then []
    else
      (if cs[|cs| - 1].isWidget then Order(cs[|cs| - 1]) else []) + Pending(cs[..|cs| - 1])
  }

  /** The visits still to come for a stack whose top is its last element. */
  function StackVisits(stack: seq<Widget>): seq<Widget>
  {
    if stack == [] then []
    else Order(stack[|stack| - 1]) + StackVisits(stack[..|stack| - 1])
  }

  /** The whole search: the top-level widgets in host order, each searched to
      the end before the next one starts. */
  function Visits(tops: seq<Widget>): (r: seq<Widget>)
    ensures |r| >= |tops|
  {
    if tops == [] then [] else Order(tops[0]) + Visits(tops[1..])
  }

  /** The position of the first widget of `s` that `accept` takes, or -1. */
  function MatchIndex(s: seq<Widget>, accept: Widget -> bool): (r: int)
    ensures -1 <= r < |s|
    ensures r >= 0 ==> accept(s[r]) && forall j :: 0 <= j < r ==> !accept(s[j])
    ensures r == -1 <==> forall j :: 0 <= j < |s| ==> !accept(s[j])
  {
    if s == [] then -1
    else if accept(s[0]) then 0
    else
      var k := MatchIndex(s[1..], accept);
      if k == -1 then -1 else k + 1
  }

  function FirstMatch(s: seq<Widget>, accept: Widget -> bool): Option<Widget>
  {
    var k := MatchIndex(s, accept);
    if k >= 0 then Some(s[k]) else None
  }

  // ---------------------------------------------------------------------
  // search_widget

  /** `search_widget(match)`: the first widget, in visiting order, that
      `accept` takes, or `None` when there is none. */
  method SearchWidget(tops: seq<Widget>, accept: Widget -> bool) returns (r: Option<Widget>)
    ensures r == FirstMatch(Visits(tops), accept)
  {
    var i := 0;
    while i < |tops|
      invariant 0 <= i <= |tops|
      invariant FirstMatch(Visits(tops), accept) == FirstMatch(Visits(tops[i..]), accept)
    {
      VisitsUnfold(tops, i);
      FirstMatchAppend(Order(tops[i]), Visits(tops[i + 1..]), accept);
      r := SearchTree(tops[i], accept);
      if r.Some? {
        return;
      }
      i := i + 1;
    }
    return None;
  }

  /** The stack loop of `search_widget` for one top-level widget `t`. */
  method SearchTree(t: Widget, accept: Widget -> bool) returns (r: Option<Widget>)
    ensures r == FirstMatch(Order(t), accept)
  {
    var s := [t];
    StackPush([], t);
    assert [] + [t] == s && Order(t) + [] == Order(t);
    while s != []
      invariant FirstMatch(Order(t), accept) == FirstMatch(StackVisits(s), accept)
      decreases |StackVisits(s)|
    {
      var p := s[|s| - 1];
      ghost var whole := StackVisits(s);
      s := s[..|s| - 1];
      assert whole == [p] + (Pending(p.children) + StackVisits(s));
      FirstMatchCons(p, Pending(p.children) + StackVisits(s), accept);
      if accept(p) {
        return Some(p);
      }
      s := PushChildren(s, p);
    }
    return None;
  }

  /** The inner `foreach` of `search_widget`: push the widget children of
      `p` in child order. */
  method PushChildren(s0: seq<Widget>, p: Widget) returns (s: seq<Widget>)
    ensures StackVisits(s) == Pending(p.children) + StackVisits(s0)
  {
    s := s0;
    var j := 0;
    while j < |p.children|
      invariant 0 <= j <= |p.children|
      invariant StackVisits(s) == Pending(p.children[..j]) + StackVisits(s0)
    {
      var c := p.children[j];
      PushStep(s0, s, p.children, j);
      if c.isWidget {
        s := s + [c];
      }
      j := j + 1;
    }
    assert p.children[..|p.children|] == p.children;
  }

  /** One turn of the loop in `PushChildren`. */
  lemma PushStep(s0: seq<Widget>, s: seq<Widget>, cs: seq<Widget>, j: nat)
    requires j < |cs| && StackVisits(s) == Pending(cs[..j]) + StackVisits(s0)
    ensures cs[j].isWidget ==> StackVisits(s + [cs[j]]) == Pending(cs[..j + 1]) + StackVisits(s0)
    ensures !cs[j].isWidget ==> StackVisits(s) == Pending(cs[..j + 1]) + StackVisits(s0)
  {
    PendingSnoc(cs, j);
    if cs[j].isWidget {
      StackPush(s, cs[j]);
      SeqAssoc(Order(cs[j]), Pending(cs[..j]), StackVisits(s0));
    } else {
      assert [] + Pending(cs[..j]) == Pending(cs[..j]);
    }
  }

  lemma SeqAssoc(a: seq<Widget>, b: seq<Widget>, c: seq<Widget>)
    ensures a + (b + c) == (a + b) + c
  {
  }

  lemma VisitsUnfold(tops: seq<Widget>, i: nat)
    requires i < |tops|
    ensures Visits(tops[i..]) == Order(tops[i]) + Visits(tops[i + 1..])
  {
    assert tops[i..][0] == tops[i] && tops[i..][1..] == tops[i + 1..];
  }

  lemma StackPush(s: seq<Widget>, c: Widget)
    ensures StackVisits(s + [c]) == Order(c) + StackVisits(s)
  {
    assert (s + [c])[..|s|] == s;
  }

  lemma PendingSnoc(cs: seq<Widget>, j: nat)
    requires j < |cs|
    ensures Pending(cs[..j + 1]) == (if cs[j].isWidget then Order(cs[j]) else []) + Pending(cs[..j])
  {
    assert cs[..j + 1][..j] == cs[..j];
  }

  /** The first match in `a + b` is the first match in `a`, if any, and
      otherwise the first match in `b`. */
  lemma {:induction false} FirstMatchAppend(a: seq<Widget>, b: seq<Widget>, accept: Widget -> bool)
    ensures FirstMatch(a + b, accept) == if FirstMatch(a, accept).Some? then FirstMatch(a, accept) else FirstMatch(b, accept)
  {
    if a == [] {
      assert a + b == b;
    } else {
      FirstMatchAppend(a[1..], b, accept);
      assert a + b == [a[0]] + (a[1..] + b);
      assert a == [a[0]] + a[1..];
      FirstMatchCons(a[0], a[1..] + b, accept);
      FirstMatchCons(a[0], a[1..], accept);
    }
  }

  lemma FirstMatchCons(p: Widget, s: seq<Widget>, accept: Widget -> bool)
    ensures FirstMatch([p] + s, accept) == if accept(p) then Some(p) else FirstMatch(s, accept)
  {
    assert ([p] + s)[0] == p;
    assert ([p] + s)[1..] == s;
  }

  // ---------------------------------------------------------------------
  // console_by_thread, console_peek_first

  /** The search's predicate in `console_by_thread`: a console of thread `thread`. */
  predicate OwnedBy(thread: int, w: Widget)
  {
    w.kind.Edit? && w.kind.console.thread == thread
  }

  /** `console_by_thread()`: the first console, in visiting order, that
      belongs to `thread`; `null` exactly when no visited widget is one. */
  method ConsoleByThread(tops: seq<Widget>, thread: int) returns (c: Console?)
    ensures c != null ==> c.thread == thread
    ensures c == null <==> forall k :: 0 <= k < |Visits(tops)| ==> !OwnedBy(thread, Visits(tops)[k])
    ensures c != null ==> exists k :: 0 <= k < |Visits(tops)| && Visits(tops)[k].kind == Edit(c) &&
                            forall j :: 0 <= j < k ==> !OwnedBy(thread, Visits(tops)[j])
  {
    var r := SearchWidget(tops, w => OwnedBy(thread, w));
    c := if r.Some? then r.value.kind.console else null;
  }

  /** `console_peek_first()`: the first console in visiting order, whoever
      owns it; `null` exactly when no visited widget is a console. */
  method ConsolePeekFirst(tops: seq<Widget>) returns (c: Console?)
    ensures c == null <==> forall k :: 0 <= k < |Visits(tops)| ==> !Visits(tops)[k].kind.Edit?
    ensures c != null ==> exists k :: 0 <= k < |Visits(tops)| && Visits(tops)[k].kind == Edit(c) &&
                            forall j :: 0 <= j < k ==> !Visits(tops)[j].kind.Edit?
  {
    var r := SearchWidget(tops, (w: Widget) => w.kind.Edit?);
    c := if r.Some? then r.value.kind.console else null;
  }

  // ---------------------------------------------------------------------
  // What the search reaches

  /** `x` is `w` or lies below it along a path of widget children. */
  ghost predicate Reachable(w: Widget, x: Widget)
    decreases w
  {
    x == w ||
    exists k :: 0 <= k < |w.children| && w.children[k].isWidget && Reachable(w.children[k], x)
  }

  /** The search visits exactly the widgets reachable through widget
      children: none below a non-widget child, every one otherwise. */
  lemma {:induction false} OrderReachable(w: Widget, x: Widget)
    ensures x in Order(w) <==> Reachable(w, x)
    decreases w
  {
    PendingReachable(w.children, x);
  }

  lemma {:induction false} PendingReachable(cs: seq<Widget>, x: Widget)
    ensures x in Pending(cs) <==> exists k :: 0 <= k < |cs| && cs[k].isWidget && Reachable(cs[k], x)
    decreases cs
  {
    if cs != [] {
      var n := |cs| - 1;
      var pre := cs[..n];
      PendingReachable(pre, x);
      if cs[n].isWidget {
        OrderReachable(cs[n], x);
      }
      if exists k :: 0 <= k < |cs| && cs[k].isWidget && Reachable(cs[k], x) {
        var k :| 0 <= k < |cs| && cs[k].isWidget && Reachable(cs[k], x);
        if k < n {
          assert pre[k] == cs[k];
        }
      }
      if exists k :: 0 <= k < |pre| && pre[k].isWidget && Reachable(pre[k], x) {
        var k :| 0 <= k < |pre| && pre[k].isWidget && Reachable(pre[k], x);
        assert cs[k] == pre[k];
      }
    }
  }

  /** Over the whole forest: a widget is visited exactly when it is
      reachable from some top-level widget. */
  lemma {:induction false} VisitsReachable(tops: seq<Widget>, x: Widget)
    ensures x in Visits(tops) <==> exists t :: t in tops && Reachable(t, x)
  {
    if tops != [] {
      OrderReachable(tops[0], x);
      VisitsReachable(tops[1..], x);
      if exists t :: t in tops && Reachable(t, x) {
        var t :| t in tops && Reachable(t, x);
        if t != tops[0] {
          assert t in tops[1..];
        }
      }
    }
  }

  /** Stack order: right after a widget comes its last widget child. */
  lemma LastChildFirst(w: Widget)
    requires |w.children| > 0 && w.children[|w.children| - 1].isWidget
    ensures |Order(w)| >= 2 && Order(w)[0] == w && Order(w)[1] == w.children[|w.children| - 1]
  {
    var last := w.children[|w.children| - 1];
    assert Pending(w.children) == Order(last) + Pending(w.children[..|w.children| - 1]);
    assert Order(last)[0] == last;
  }

  /** With at most one console per thread, the search finds that console
      whatever the order. */
  lemma UniqueOwner(s: seq<Widget>, thread: int, k: nat)
    requires k < |s| && OwnedBy(thread, s[k])
    requires forall j :: 0 <= j < |s| && j != k ==> !OwnedBy(thread, s[j])
    ensures FirstMatch(s, w => OwnedBy(thread, w)) == Some(s[k])
  {
  }
}

=== FILE: window.dfy ===
/** The option list of `win_window_pos/1`, interpreted over the geometry of
    the window that frames the console. Options are applied in list order;
    the first option it does not recognise makes the predicate fail, and what
    the options before it did stays done. */
module Window {
  import opened Prolog

  /** What the options change of the framing window. */
  datatype Geometry = Geometry(width: int, height: int, x: int, y: int, visible: bool, active: bool)

  /** The size in pixels of the glyph "Q" in the console font: one character cell. */
  datatype Cell = Cell(w: int, h: int)

  /** The options `win_window_pos/1` recognises, by name and arity. */
  predicate Recognised(na: NameArity)
  {
    na in {NameArity("size", 2), NameArity("position", 2), NameArity("zorder", 1),
           NameArity("show", 1), NameArity("activate", 0)}
  }

  /** One option: `Ok(Some(g))` when it is recognised, `Ok(None)` when it is
      not, `Raise` when an argument does not convert. */
  function PosOption(g: Geometry, opt: Term, cell: Cell): (r: Result<Option<Geometry>>)
    ensures r.Ok? && r.value.Some? ==> NameAndArity(opt).Ok? && Recognised(NameAndArity(opt).value)
    ensures NameAndArity(opt).Ok? && !Recognised(NameAndArity(opt).value) ==> r == Ok(None)
    ensures NameAndArity(opt).Raise? ==> r == Raise(TypeError("compound"))
    ensures r.Raise? ==> r.error.TypeError?
  {
    match NameAndArity(opt)
    case Raise(e) => Raise(e)
    case Ok(na) =>
      if na.arity == 2 && na.name == "size" then
        match AsLong(opt.args[0])
        case Raise(e) => Raise(e)
        case Ok(w) =>
          match AsLong(opt.args[1])
          case Raise(e) => Raise(e)
          case Ok(h) => Ok(Some(g.(width := Wrap32(cell.w * w), height := Wrap32(cell.h * h))))
      else if na.arity == 2 && na.name == "position" then
        match AsLong(opt.args[0])
        case Raise(e) => Raise(e)
        case Ok(x) =>
          match AsLong(opt.args[1])
          case Raise(e) => Raise(e)
          case Ok(y) => Ok(Some(g.(x := Wrap32(x), y := Wrap32(y))))
      else if na.arity == 1 && na.name == "zorder" then
        Ok(Some(g))
      else if na.arity == 1 && na.name == "show" then
        match NameAndArity(opt.args[0])
        case Raise(e) => Raise(e)
        case Ok(b) => Ok(Some(g.(visible := b.name == "true")))
      else if na.arity == 0 && na.name == "activate" then
        Ok(Some(g.(active := true)))
      else
        Ok(None)
  }

  /** A run over the option list: the final geometry and how the predicate ends. */
  datatype Run = Run(g: Geometry, outcome: Outcome)

  /** The run over the option list. The only exceptions it raises are the
      type errors of the argument conversions. */
  function WindowPos(g: Geometry, opts: seq<Term>, cell: Cell): (r: Run)
    ensures r.outcome.Throw? ==> r.outcome.error.TypeError?
    decreases |opts|
  {
    if opts == [] then Run(g, Succeed)
    else
      match PosOption(g, opts[0], cell)
      case Raise(e) => Run(g, Throw(e))
      case Ok(None) => Run(g, Fail)
      case Ok(Some(g')) => WindowPos(g', opts[1..], cell)
  }

  /** In list order, stopping at the first option that fails or raises. */
  lemma {:induction false} WindowPosAppend(g: Geometry, a: seq<Term>, b: seq<Term>, cell: Cell)
    ensures WindowPos(g, a + b, cell) ==
      (var ra := WindowPos(g, a, cell);
       if ra.outcome == Succeed then WindowPos(ra.g, b, cell) else ra)
    decreases |a|
  {
    if a == [] {
      assert a + b == b;
    } else {
      assert (a + b)[0] == a[0];
      assert (a + b)[1..] == a[1..] + b;
      match PosOption(g, a[0], cell)
      case Raise(_) =>
      case Ok(None) =>
      case Ok(Some(g')) => WindowPosAppend(g', a[1..], b, cell);
    }
  }

  /** The predicate is true exactly when every option is recognised and
      converts; otherwise it ends at the first one that does not. */
  lemma {:induction false} WindowPosSucceeds(g: Geometry, opts: seq<Term>, cell: Cell)
    ensures WindowPos(g, opts, cell).outcome == Succeed <==>
      forall k :: 0 <= k < |opts| ==>
        var pk := PosOption(WindowPos(g, opts[..k], cell).g, opts[k], cell);
        pk.Ok? && pk.value.Some?
    decreases |opts|
  {
    if opts != [] {
      assert opts[..0] == [];
      match PosOption(g, opts[0], cell)
      case Raise(_) =>
      case Ok(None) =>
      case Ok(Some(g')) =>
        WindowPosSucceeds(g', opts[1..], cell);
        forall k | 1 <= k <= |opts|
          ensures WindowPos(g, opts[..k], cell).g == WindowPos(g', opts[1..][..k - 1], cell).g
        {
          assert opts[..k][0] == opts[0];
          assert opts[..k][1..] == opts[1..][..k - 1];
        }
        if WindowPos(g, opts, cell).outcome == Succeed {
          forall k | 0 <= k < |opts|
            ensures var pk := PosOption(WindowPos(g, opts[..k], cell).g, opts[k], cell);
                    pk.Ok? && pk.value.Some?
          {
            if k > 0 { assert opts[k] == opts[1..][k - 1]; }
          }
        } else {
          var j :| 0 <= j < |opts[1..]| &&
            var pj := PosOption(WindowPos(g', opts[1..][..j], cell).g, opts[1..][j], cell);
            !(pj.Ok? && pj.value.Some?);
          assert opts[1..][j] == opts[j + 1];
        }
    }
  }

  /** `size(W, H)` counts in character cells. */
  lemma SizeInCells(g: Geometry, w: int, h: int, cell: Cell)
    requires IsLong(w) && IsLong(h) && IsInt32(cell.w * w) && IsInt32(cell.h * h)
    ensures WindowPos(g, [Compound("size", [Integer(w), Integer(h)])], cell)
            == Run(g.(width := cell.w * w, height := cell.h * h), Succeed)
  {
  }

  /** `show(B)` makes the window visible exactly when B is `true`; `zorder(_)`
      changes nothing. */
  lemma ShowAndZOrder(g: Geometry, b: Term, z: Term, cell: Cell)
    requires b.Atom?
    ensures WindowPos(g, [Compound("show", [b])], cell) == Run(g.(visible := b.name == "true"), Succeed)
    ensures WindowPos(g, [Compound("zorder", [z])], cell) == Run(g, Succeed)
  {
  }

  /** An unrecognised option fails the predicate without undoing the options before it. */
  lemma UnknownOptionKeepsEarlierEffects(g: Geometry, before: seq<Term>, opt: Term, cell: Cell)
    requires WindowPos(g, before, cell).outcome == Succeed
    requires NameAndArity(opt).Ok? && !Recognised(NameAndArity(opt).value)
    ensures WindowPos(g, before + [opt], cell) == Run(WindowPos(g, before, cell).g, Fail)
  {
    WindowPosAppend(g, before, [opt], cell);
  }

  /** An option with no name, such as an integer, raises the `compound` type
      error and changes nothing. */
  lemma NamelessOption(g: Geometry, opt: Term, cell: Cell)
    requires !(opt.Atom? || opt.Compound?)
    ensures WindowPos(g, [opt], cell) == Run(g, Throw(TypeError("compound")))
  {
  }

  /** `position(X, Y)` moves the window to (X, Y); `activate` activates it. */
  lemma PositionAndActivate(g: Geometry, x: int, y: int, cell: Cell)
    requires IsInt32(x) && IsInt32(y)
    ensures WindowPos(g, [Compound("position", [Integer(x), Integer(y)])], cell) == Run(g.(x := x, y := y), Succeed)
    ensures WindowPos(g, [Atom("activate")], cell) == Run(g.(active := true), Succeed)
  {
  }

  /** Either argument of `size` or `position` that is not an integer fitting
      a `long`, or an argument of `show` that has no name, raises a type error
      and changes nothing. */
  lemma ConversionErrors(g: Geometry, a: Term, b: Term, cell: Cell)
    ensures !(a.Integer? && IsLong(a.n)) ==>
      WindowPos(g, [Compound("size", [a, b])], cell) == Run(g, Throw(TypeError("integer"))) &&
      WindowPos(g, [Compound("position", [a, b])], cell) == Run(g, Throw(TypeError("integer")))
    ensures a.Integer? && IsLong(a.n) && !(b.Integer? && IsLong(b.n)) ==>
      WindowPos(g, [Compound("size", [a, b])], cell) == Run(g, Throw(TypeError("integer"))) &&
      WindowPos(g, [Compound("position", [a, b])], cell) == Run(g, Throw(TypeError("integer")))
    ensures !(a.Atom? || a.Compound?) ==>
      WindowPos(g, [Compound("show", [a])], cell) == Run(g, Throw(TypeError("compound")))
  {
  }
}
